=== FILE: README.md ===
# Pathway Infinity: a Dafny model of the recommendation, catalog, quiz, results and account logic

Pathway Infinity is a Next.js site. A student answers a six-question career quiz. The results page sends
the answers and the trade-school catalog to an analysis endpoint. That endpoint asks a language model for
recommendations, or falls back to a local scorer. Accounts sign in with an e-mail and a password, and a
signed-in user can save a set of results.

This project models the deterministic logic under those pages and routes as pure Dafny functions over
immutable data, and proves what each piece promises:

- `Analyze` (`app/api/quiz/analyze/route.js`): the request checks, the truncation of the list sent to the
  model, the choice between the model and the fallback, the model reply's shape check, and the fallback
  scorer. The scorer joins the answers, gives weighted substring hits, adds one reason per hit, sorts stably
  by score, keeps the top five and writes the fixed narrative.
- `Catalog` (`app/api/schools/route.js`): record normalisation, mapping upstream error codes to statuses,
  table-name cleaning and opening the table, and the GET search formula. Also the POST answers/filters
  formula and the fixed query options.
- `AirtableService` (`lib/services/airtable.js`): the client-side FIND formula, the query, and record
  normalisation (the same as the catalog's) with its single error message.
- `Quiz` (`app/questionnaire/page.jsx`): the question table and a state machine for selection, next, start
  and the answer-restore effect.
- `Results` (`app/results/page.jsx`): the case-tolerant property lookup, array rendering, name and cost
  display, the `analyzeResults` request and validation chain, the four views, and retaking the quiz.
- `AuthForm` (`app/components/AuthForm.jsx`): field validation, including the unanchored
  `\S+@\S+\.\S+` e-mail test as a one-pass scanner. Also the submit flow and error clearing on edit.
- `AuthConfig` (`lib/auth-config.js`): `authorize` and the `jwt` and `session` callbacks.
- `Login`, `Signup` (`app/api/auth/login/route.js`, `app/api/auth/signup/route.js`) over `UserStore`, an
  in-memory user table with unique e-mail addresses.
- `SavedResults` (`app/api/quiz/save/route.js`): listing a user's saved results newest first, and saving one.
- `Integration`: where two components meet, each modelled at its own boundary.

Supporting modules:

- `Wrappers`: `Option` and `Result`.
- `Text`: the JavaScript string operations used (`toLowerCase`, `includes`, `join`, `split(',')[0]`,
  `trim`, `replace(/"/g, '')`, number rendering).
- `Json`: JSON values with JavaScript truthiness, property reads, `||` defaults and `String(v)`.
- `Sorting`: a stable descending insertion sort with its permutation, order and stability properties.

External services are parameters of the functions that call them:

- the language model (`ai`, given the schools and the parsed answers of its prompt), `JSON.parse` of a string `answers` (`parse`) and `Object.values` of the parsed answers (`values`);
- the catalog's `select().all()` (`fetch`);
- the browser's `fetch` replies (`Fetched`) and next-auth's `signIn`;
- password hashing and comparison (`hash`, `verify`/`compare`) and token signing (`createToken`);
- the current time (`now`).

The database tables are in-memory stores.

Two cross-component mismatches are kept as the code has them, and `Integration` exhibits them:

- The catalog emits lower-case keys, but the scorer reads capitalised column names. Every normalised record
  therefore scores 0 with the default reasoning.
- The results page posts the catalog's `{ schools }` wrapper object as `schools`. The analysis route rejects
  that with 400.

## Model

| member | source | states |
|---|---|---|
| Analyze.Route | app/api/quiz/analyze/route.js:16-73 | A missing `answers` gives 400 "Quiz answers are required". A missing or non-array `schools` gives 400 "Schools data is required and must be an array". Status 400 occurs exactly on these rejections. A string `answers` that does not parse gives 500 before the key check. With a usable key and parsed answers, the model is always called with exactly the first min(50, n) schools. When it returns an accepted reply, the route answers 200 with that reply on the primary path. The fallback path answers with the fallback over the full list. An unreadable body gives 500 with the "Failed to analyze results: " prefix. |
| Analyze.NoKeyMeansFallback | app/api/quiz/analyze/route.js:51-55 | With no key, an empty key or the placeholder key, the model is never called and the response is the fallback over the untruncated school list. |
| Analyze.RejectedReplyMeansFallback | app/api/quiz/analyze/route.js:57-63 | With a usable key, a model reply that throws or fails the shape check never takes the primary path. The response is the fallback over the untruncated list. |
| Analyze.AcceptedReplyIsPrimary | app/api/quiz/analyze/route.js:40-59 | With a usable key, parsed answers and an accepted reply, the primary path answers. `Object.values` of the answers plays no part, so answers that only the fallback could not enumerate (such as `null`) still get the model's reply. |
| Analyze.AcceptAi | app/api/quiz/analyze/route.js:201-217 | A reply is accepted exactly when it is an object with a truthy `analysis` and a truthy `recommendedSchools`. Then `matches` is `recommendedSchools` unchanged and `analysis` is passed through. |
| Analyze.TallyTagsCounts | app/api/quiz/analyze/route.js:92-119 | A tag loop succeeds exactly when every tag is a string. The score grows by the column weight times the number of hits. Exactly one reason is appended per hit, and earlier reasons are kept. |
| Analyze.ScoreFormula | app/api/quiz/analyze/route.js:83-125 | Scoring succeeds exactly when the tag arrays hold strings and a truthy Location is a string. The score is 3×(Pathway hits) + 2×(Industries hits) + (Program Length hits) + (1 if the first comma segment of the Location is contained). A Program Length tag also hits when the answers contain "quick" and the tag contains "Month". The reason count equals the number of increments, so score > 0 iff a reason was pushed. |
| Analyze.UntaggedScoresZero | app/api/quiz/analyze/route.js:87-136 | A school with none of `Pathway`, `Industries`, `Program Length` and `Location` scores 0. It is its own properties plus `score` 0 and the default reasoning "offers quality programs that match your career goals". |
| Analyze.ScoredShape | app/api/quiz/analyze/route.js:132-136 | A scored school is the school's own properties unchanged, plus `score` (the formula's value) and `reasoning`. |
| Analyze.ReasoningClauses | app/api/quiz/analyze/route.js:127-135 | The reasoning is the default clause when nothing matched. Otherwise it is the single clause, or the first two clauses joined by " and ". |
| Analyze.ScoreAll | app/api/quiz/analyze/route.js:87-137 | Every school is scored, in input order. The mapping fails as soon as any school's scoring throws. |
| Analyze.Rank | app/api/quiz/analyze/route.js:139-142 | The kept list has min(5, n) entries and is non-increasing in score. Its entries are a sub-multiset of the input. No dropped school outscores a kept one. Equal scores keep input order. |
| Analyze.Fallback | app/api/quiz/analyze/route.js:76-157 | The fallback succeeds exactly when every school is scored against the answer values joined by spaces (`null` joining as nothing) and lower-cased. `matches` is an array of min(5, n) schools, and `analysis` is the narrative over the answer values as `String` renders them. |
| Analyze.FallbackResponse | app/api/quiz/analyze/route.js:66-157 | If `Object.values` throws, or scoring any school throws, the reply is 500 with "Failed to analyze results: " and the message. Otherwise it is 200 with the fallback's matches and analysis. |
| Analyze.FallbackRanking | app/api/quiz/analyze/route.js:139-151 | Every recommended school is the scored form of an input school. The list is non-increasing, no omitted school scores higher, and ties keep input order. |
| Analyze.AnalysisMentionsAnswers | app/api/quiz/analyze/route.js:144-146 | Each of the first six answer values, as `String` renders it, occurs in the narrative text ("undefined" for a missing one). |
| Analyze.NullAnswerRenderings | app/api/quiz/analyze/route.js:83-146 | A `null` answer value is rendered two ways: it adds nothing to the preference string, but the narrative writes "null" in its place. |
| Sorting.SortDesc | app/api/quiz/analyze/route.js:140-141 | The sort is a permutation of its input, is non-increasing by key, and keeps the input order of equal keys, as ECMAScript's stable `Array.prototype.sort` does. |
| Sorting.DroppedAreNotGreater | app/api/quiz/analyze/route.js:142 | After `slice(0, n)` of a sorted list, no dropped element has a larger key than a kept one. |
| Text.FirstSegment | app/api/quiz/analyze/route.js:122 | `split(',')[0]` is a prefix of the string that contains no comma and is followed by a comma or by the end. |
| Text.Lower | app/api/quiz/analyze/route.js:83 | Lower-casing keeps the length, maps each character, and leaves no upper-case ASCII letter. |
| Text.RemoveAll | app/api/schools/route.js:52 | Removing every double quote leaves none, and every other character keeps its count. |
| Text.RemoveAllConcat | app/api/schools/route.js:52 | Removal distributes over concatenation, so the kept characters stay in their original order. |
| Text.RemoveAllOne | app/api/schools/route.js:52 | A single character is dropped exactly when it is the removed one. |
| Text.Trim | app/api/schools/route.js:52 | `trim()` leaves the part of the string between a white-space prefix and a white-space suffix. That part neither starts nor ends with white space. |
| Catalog.TransformRecord | app/api/schools/route.js:119-148 | A normalised record has exactly the keys id plus name, pathway, industries, programLength, cost, housing, website and location. `id` is the record id. Each field is the source column when truthy, else `''`. Cost is the Cost column when truthy, else "Contact for pricing", so it is never `''`. |
| Catalog.TransformRecords | app/api/schools/route.js:112-149 | Normalisation keeps the length and the order of the records. |
| Catalog.SchoolsBody | app/api/schools/route.js:196-198 | The reply is an object whose only key is `schools`. It holds one entry per record, in order, and entry i is the normalised form of record i. |
| Catalog.ErrorResponseFor | app/api/schools/route.js:72-105 | NOT_AUTHORIZED gives 403 and NOT_FOUND gives 404, both with error, details and `message` when one is given. Any other code gives 500, with `details` defaulting to "Unknown error occurred" and `errorType` to "UNKNOWN". |
| Catalog.Resolve | app/api/schools/route.js:18-22 | A server setting wins when non-empty; otherwise its public alias is used. |
| Catalog.CleanTableName | app/api/schools/route.js:52-54 | The cleaned name is the quote-free name with white space stripped at both ends and nowhere else. It contains no double quote and neither starts nor ends with white space. |
| Catalog.CleanIdempotent | app/api/schools/route.js:52-54 | Cleaning leaves a name unchanged exactly when the name has no double quote and no white space at either end. Hence cleaning twice is cleaning once. |
| Catalog.OpenTable | app/api/schools/route.js:38-60 | The table is opened exactly when key, base and table name all resolve to non-empty values and the cleaned table name is non-empty; the client throws on an empty name, and the error is caught. The handle carries the resolved key and base and the cleaned name. |
| Catalog.QuotedEmptyNameUnconfigured | app/api/schools/route.js:50-66 | A table name of two double quotes cleans to the empty name. No table is opened, and both routes answer 500 "Airtable configuration is missing or invalid". |
| Catalog.Options | app/api/schools/route.js:181-190 | Queries use maxRecords 100 and view "Grid view". A formula is attached exactly when it is non-empty. |
| Catalog.GetSchools | app/api/schools/route.js:157-202 | Without a table it answers 500 "Airtable configuration is missing or invalid" and issues no query. Otherwise it issues one query with the fixed options. A filter is attached exactly for a truthy search term: the OR of SEARCH over Name, Description and Location. Records are answered with the `{ schools }` body. An upstream error is answered exactly as the error handler maps it. |
| Catalog.FilterClauses | app/api/schools/route.js:228-247 | There is one clause per set filter, in the order location, pathway, industries, cost. Each set filter's clause sits at the index given by the number of set filters before it, and its text is that filter's SEARCH or Cost clause. |
| Catalog.FiltersFormula | app/api/schools/route.js:249-251 | There is no formula exactly when no filter is set. Otherwise the formula is `AND(` followed by the clauses joined by "," and then `)`. |
| Catalog.FiltersFormulaHasEach | app/api/schools/route.js:228-251 | Every clause of a set filter occurs in the filters formula. |
| Catalog.PostSchools | app/api/schools/route.js:208-273 | Without a table it answers 500 and issues no query. An unreadable body is an upstream error without a code, so 500 UNKNOWN. Otherwise it issues one query whose options carry the answers or filters formula, maxRecords 100 and "Grid view". Records are answered with the `{ schools }` body, and an upstream error exactly as the error handler maps it. |
| Catalog.AnswersOverrideFilters | app/api/schools/route.js:222-228 | With non-empty answers, the filters play no part in the formula. |
| Catalog.AnswersFormulaSearchesEach | app/api/schools/route.js:222-227 | The answers formula contains `SEARCH("v", {Industries})` for every answer value. |
| AirtableService.MatchQuery | lib/services/airtable.js:24-28 | The client query always uses maxRecords 100, "Grid view" and the FIND formula, even when that formula is empty. |
| AirtableService.GetMatchingSchools | lib/services/airtable.js:16-63 | The query issued is the match query. Any failure becomes "Failed to fetch trade schools". Otherwise each record is normalised exactly as the catalog route does it: the id and the eight keys, falsy columns as `''`, and a never-empty cost. |
| AirtableService.MatchFormulaFindsEach | lib/services/airtable.js:18-21 | The formula for truthy answers contains `FIND("v", {Industries})` for every answer value. |
| AirtableService.EmptyAnswersFormula | lib/services/airtable.js:18-21 | An empty answer object gives `OR()`, and absent answers give the empty formula. |
| Quiz.QuestionTable | app/questionnaire/page.jsx:11-72 | There are six questions with ids 1 to 6, each with four option values. |
| Quiz.Next | app/questionnaire/page.jsx:89-131 | With no selection, nothing changes and nothing is stored. Otherwise the selection is recorded under the current id and other answers are unchanged. The selection is cleared, and the restore effect then sets it to the new current question's stored answer when that answer is truthy. Before the last question the index rises by exactly 1 and stays in [0, 5]. On the last question the previous answers plus the last one are stored and the page goes to "/results". |
| Quiz.Settle | app/questionnaire/page.jsx:89-95 | A truthy stored answer for the current question becomes the selection. Otherwise the selection is left alone. |
| Quiz.Start | app/questionnaire/page.jsx:134-144 | Start marks the quiz started, with index 0, no answers and no selection. |
| Quiz.PlayFrom | app/questionnaire/page.jsx:98-131 | From question k with answers for ids 1..k, the remaining choices produce silent steps and then one store of the answers for ids 1..6. |
| Quiz.RunStoresOneAnswerPerQuestion | app/questionnaire/page.jsx:98-143 | Start followed by six choices gives five silent steps, then one store with exactly the keys 1..6. Id i holds the i-th choice, and the page goes to "/results". |
| Quiz.RevisitRestores | app/questionnaire/page.jsx:89-95 | Returning to an answered question restores its stored answer as the selection. |
| Results.GetSchoolProperty | app/results/page.jsx:33-49 | A non-object gives null. For an object, the first truthy value under the exact, the capitalised and then the lower-cased key is returned, and null when there is none. |
| Results.LookupFindsAnySpelling | app/results/page.jsx:33-49 | The lookup finds a value exactly when one of the three spellings holds a truthy value. |
| Results.RenderArray | app/results/page.jsx:54-58 | A falsy value renders nothing, an array renders its elements, and any other value renders as one element. |
| Results.DisplayName | app/results/page.jsx:277 | The card heading is the truthy `name`, else the truthy `Name`, else "Unnamed School". |
| Results.CostShown | app/results/page.jsx:281-348 | The cost line is hidden exactly when neither `cost` nor `Cost` holds a truthy value. Otherwise the truthy `cost` (or else `Cost`) is shown: an array joined by ", ", anything else as is. |
| Results.CostListShownJoined | app/results/page.jsx:344-348 | A cost list of strings is shown as those strings joined by ", ". |
| Results.JoinValuesOfStrings | app/results/page.jsx:348 | Joining an array of string values gives the same text as joining the strings. |
| Results.AnalyzeRequest | app/results/page.jsx:104-113 | The analysis request carries exactly `answers` (the stored string) and `schools` (the catalog reply as is). |
| Results.Validate | app/results/page.jsx:122-146 | A `null` reply throws while its `analysis` is logged, before any check. Otherwise a reply is accepted exactly when it is a truthy object with no truthy `error` and an array `matches`, and it is then kept unchanged. Otherwise the error is "Invalid response format from analysis API", the reply's own error text, or "No school matches found in response", in that order. |
| Results.Try | app/results/page.jsx:74-147 | Missing stored answers fail with "No quiz answers found…" before any request is made. An ok catalog reply of `null` throws when its length is read, and no analysis request is made. The analysis request is made only after an ok, non-null catalog reply. Success happens exactly when every step succeeds and the reply is acceptable. |
| Results.AnalyzeResults | app/results/page.jsx:72-156 | Loading always ends. Missing answers give the "No quiz answers found" error with no request made. Any error is non-empty (the generic message replaces an empty one) and keeps the previous results. Without an error the results are the accepted reply unchanged. |
| Results.ViewOf | app/results/page.jsx:165-242 | Exactly one of the loading, error, empty and matches views has its condition met, for every combination of loading, error and matches length. |
| Results.SuccessShowsMatches | app/results/page.jsx:206-242 | After a successful analysis, the matches view shows exactly when there is at least one match. After a failure, the error view shows. |
| Results.RetakeQuiz | app/results/page.jsx:158-161 | Retaking removes the stored answers and opens "/questionnaire". |
| Results.RetakeThenAnalyze | app/results/page.jsx:80-84 | Analysing after a retake reports the missing answers and requests nothing. |
| AuthForm.IsEmail | app/components/AuthForm.jsx:29 | The scanner answers true exactly when `\S+@\S+\.\S+` matches somewhere in the string. |
| AuthForm.Validate | app/components/AuthForm.jsx:26-39 | Each field is judged independently. An empty e-mail gives "Email is required" and a non-matching one "Please enter a valid email". An empty password gives "Password is required" and one shorter than 8 "Password must be at least 8 characters". A name error occurs only in signup mode with an empty name. No other keys appear. |
| AuthForm.Submit | app/components/AuthForm.jsx:21-94 | Loading always ends. With any validation error nothing is requested and the errors are exactly the validation errors. Login never posts the signup form. Sign-in uses the form's e-mail and password. In login mode, any sign-in error becomes `auth: 'Invalid credentials'`, and a thrown error its message. In signup mode, valid input always posts the form; a thrown request gives its message, and a refused reply gives `data.error || 'Failed to sign up'`, and in both cases no sign-in happens. Sign-in happens only after an ok reply; its error becomes that error's own text, and a thrown sign-in its message. In either mode, success opens "/dashboard" and leaves the errors as they were. |
| AuthForm.Change | app/components/AuthForm.jsx:96-103 | Editing sets that field's value and blanks only that field's error. Every other error and the error keys are unchanged. |
| AuthConfig.Authorize | lib/auth-config.js:16-35 | A missing e-mail or password fails with "Missing credentials.". Success happens exactly when the user exists and the password compares. It returns only the user's id, e-mail and name, and any other failure is "Invalid credentials.". |
| AuthConfig.MissingCredentialsIgnoreStore | lib/auth-config.js:17-19 | Missing credentials fail identically whatever the user table and the comparison are, so no lookup matters. |
| AuthConfig.UnknownAndWrongPasswordAlike | lib/auth-config.js:25-32 | An unknown e-mail and a wrong password fail with the identical "Invalid credentials.". |
| AuthConfig.UserObject | lib/auth-config.js:34 | The signed-in user object has exactly id, email and name, and no password. |
| AuthConfig.Jwt | lib/auth-config.js:47-64 | On sign-in, the token takes the user's id and role and keeps its other claims. Without a user, a token with a truthy role or without an e-mail is unchanged. Otherwise a found user supplies the role and the decimal string of the id, and an unknown e-mail leaves the token unchanged. |
| AuthConfig.SignInToken | lib/auth-config.js:50-52 | After sign-in with an `authorize` result, the token holds the numeric id and no role. |
| AuthConfig.RefreshAfterSignIn | lib/auth-config.js:53-62 | The next refresh of that token takes the role from the table and replaces the id by its decimal string. |
| AuthConfig.Session | lib/auth-config.js:65-68 | The session user's id becomes the token's id. Every other session field and user field is unchanged. |
| UserStore.FindByEmail | app/api/auth/login/route.js:23-31 | The lookup finds a user exactly when the e-mail is registered, and in a valid table that user is the only one with that address. |
| UserStore.Create | app/api/auth/signup/route.js:41-52 | Creation fails exactly when the e-mail is taken. Otherwise it appends one user with the next id and keeps e-mails unique. |
| Login.Post | app/api/auth/login/route.js:10-61 | A missing e-mail or password gives 400 "Email and password are required". An unknown e-mail gives 401 "Invalid credentials". A found user whose password does not verify gets the same 401. A found user whose password verifies gets 200, with that user's public fields and a token created for that id. A token is set exactly when the status is 200. Unreadable input gives 500 "Login failed". |
| Login.PublicUser | app/api/auth/login/route.js:53-56 | The returned user has exactly id, email and name. |
| Login.UnknownAndWrongPasswordAlike | app/api/auth/login/route.js:33-48 | An unknown e-mail and a wrong password give the identical 401 reply and no token. |
| Login.RegisteredUserLogsIn | app/api/auth/login/route.js:22-56 | In a table with unique e-mails, any user whose password verifies logs in with 200, that user's public fields and a token for that user's id. |
| Signup.Post | app/api/auth/signup/route.js:10-61 | Any status other than 200 leaves the user table unchanged. Missing fields give 400 "Missing required fields". A registered e-mail never succeeds; when all three fields are truthy and the e-mail is a registered string, the reply is exactly 400 "Email already registered". Non-empty string name, e-mail and password with an unregistered e-mail always give 200. A 200 appends exactly one user storing `hash(password)` and replies with only id, name and e-mail plus the success message. The table stays valid. |
| Signup.SecondSignupRefused | app/api/auth/signup/route.js:26-36 | Signing up twice with one address: the first succeeds and the second is refused with the table unchanged. |
| Signup.SignupThenLogin | app/api/auth/signup/route.js:39-52 | After a signup, logging in and authorizing with the same password succeed for the new id, whenever the comparison accepts a password against its own hash. |
| SavedResults.OwnedBy | app/api/quiz/save/route.js:19-22 | The selection holds exactly the records of the given user. |
| SavedResults.ListFor | app/api/quiz/save/route.js:19-34 | The listing holds exactly the user's records, as a permutation of them, ordered by `savedAt` descending. |
| SavedResults.OwnerSummary | app/api/quiz/save/route.js:23-30 | For an owner in a valid user table, the summary is exactly `{ id, name }` of that user; an owner the table does not hold gives `null`. |
| SavedResults.Render | app/api/quiz/save/route.js:19-34 | A listed or created record carries its id, owner id, payload unchanged, `savedAt`, and, for an owner in a valid user table, `user` = `{ id, name }` of that owner. |
| SavedResults.Get | app/api/quiz/save/route.js:9-48 | Without a session user it answers 401 "Unauthorized". Otherwise it answers 200 with the user's records newest first, each owned by that user. |
| SavedResults.Post | app/api/quiz/save/route.js:53-99 | Without a session user it answers 401 and the store is untouched. A non-200 never changes the store. A falsy `results` gives 400. An unreadable or `null` body gives 500 "Internal server error". A truthy `results` gives 200 exactly when the session user's row exists, and 500 "Internal server error" otherwise, with the store untouched. A 200 appends exactly one record owned by the session user, with the payload unchanged and `savedAt` = now. |
| SavedResults.SaveThenList | app/api/quiz/save/route.js:19-91 | After a save, a listing for the same user contains the saved payload. It is first when it is newer than all of that user's earlier results, and then the first listed item carries the payload, `savedAt` = now and the owner's `{ id, name }`. |
| Integration.NormalisedRecordsScoreZero | app/api/quiz/analyze/route.js:91-130 | Every record normalised by the catalog scores 0 with the default reasoning, because it has no capitalised scorer columns. |
| Integration.WrappedSchoolsRejected | app/results/page.jsx:97-113 | The request the results page builds from the catalog reply is rejected by the analysis route with 400 "Schools data is required and must be an array". |
| Integration.ResultsPageShowsRejection | app/results/page.jsx:115-118 | End to end, that rejection becomes the page's error, and the previous results are kept. |

## Left out

- Rendering, animation and styling, the question and option display texts, and console logging: these are presentation only.
- The language-model call and its prompt are the parameter `ai`. `JSON.parse` of a string `answers` is the parameter `parse`. `Object.values` of the parsed answers is the parameter `values`, which gives the values themselves in key order; the preference string and the narrative each render them their own way. Object key order is not modelled otherwise; JSON objects are maps.
- Airtable `select().all()` is the parameter `fetch`. Prisma queries are in-memory stores. bcrypt and JWT are the parameters `hash`, `verify`/`compare` and `createToken`. Setting the cookie is reported as the token it would carry.
- Module-level client set-up of the client-side catalog accessor (`lib/services/airtable.js:5-9`): environment reading and client construction are I/O.
- Analyze.NoKeyMeansFallback: the module-level construction of the language-model client (`app/api/quiz/analyze/route.js:5-7`) is not modelled. `apiKey == None` stands for a request that reaches the key check at line 52 with the variable unset. The client library's constructor may refuse a missing key when the module loads; if it does, such a request never reaches that line, and only an empty or placeholder key gives the fallback.
- Catalog.OpenTable: the only client construction failure modelled is an empty cleaned table name. Failures the client library might raise for other inputs, such as a malformed key or base id, are not modelled.
- The search term of `GET /api/schools` is given directly; URL parsing is not modelled.
- Wall-clock time is the parameter `now`. `savedAt` is a natural number, rendered as a number rather than as an ISO date string.
- The saved-result get-by-id and delete route is not part of this model.
- JSON numbers are integers; floating point is not modelled.
- Engine error messages, such as reading a property of `null` or calling `toLowerCase` on a non-string, are fixed constants; their exact wording is the engine's.
- Text.Lower: covers ASCII letters only; Unicode case mapping is not modelled.
- AuthForm.Validate: the password length counts characters (code points), not UTF-16 code units as JavaScript's `length` does.
- Quiz.Next: React's deferred state updates are taken to apply before the next event, so `answers` in the handler's closure equals the updater's `prev`.
- Results.ViewOf: the matches length is that of an array or string `matches`. Any other `matches` value counts as an undefined length, which is all a stored, validated result can hold.
- SavedResults.Get: the session user id is a natural number. Whether the token carries it as a number or as a decimal string is not modelled. Equal `savedAt` values are listed in store order; the database leaves their order unspecified.
- Signup.Post: new users are stored without a role, because the table's default role is not in the code shown. User and saved-result ids are assigned in creation order from 1.
- UserStore.Create: concurrent signups racing past the duplicate check are not modelled.

=== FILE: airtable.dfy ===
/**
 * The client-side catalog accessor `getMatchingSchools(answers)`: a FIND
 * formula over the answer values, the fixed cap and view, the same record
 * normalisation as the catalog endpoint, and one generic error for any failure.
 */
module AirtableService {
  import opened Wrappers
  import opened Text
  import opened Json
  import Catalog

  const FetchFailed := "Failed to fetch trade schools"

  /** `FIND("value", {Industries})` */
  function FindClause(value: string): string {
    "FIND(\"" + value + "\", {Industries})"
  }

  /**
   * The filter: an OR of one FIND clause per answer value in entry order
   * (`OR()` for an empty answer object), or the empty formula when the
   * answers are falsy.
   */
  function MatchFormula(answers: Option<seq<string>>): string {
    match answers
    case None => ""
    case Some(values) => "OR(" + Join(seq(|values|, i requires 0 <= i < |values| => FindClause(values[i])), ",") + ")"
  }

  /** The query this accessor issues: the formula is always passed, possibly empty. */
  function MatchQuery(answers: Option<seq<string>>): (q: Catalog.QueryOptions)
    ensures q.maxRecords == Catalog.MaxRecords && q.view == Catalog.GridView
    ensures q.filterByFormula == Some(MatchFormula(answers))
  {
    Catalog.QueryOptions(Catalog.MaxRecords, Catalog.GridView, Some(MatchFormula(answers)))
  }

  /** The query issued and the normalised schools, or the generic failure. */
  datatype Fetched = Fetched(query: Catalog.QueryOptions, schools: Result<seq<map<string, Value>>, string>)

  function GetMatchingSchools(answers: Option<seq<string>>,
                              fetch: Catalog.QueryOptions -> Catalog.FetchResult): (r: Fetched)
    ensures r.query == MatchQuery(answers)
    ensures fetch(r.query).Failed? ==> r.schools == Failure(FetchFailed)
    ensures fetch(r.query).Records? ==>
              && r.schools.Success?
              && |r.schools.value| == |fetch(r.query).records|
              && forall i :: 0 <= i < |r.schools.value| ==>
                   var out := r.schools.value[i];
                   var rec := fetch(r.query).records[i];
                   && out == Catalog.TransformRecord(rec)
                   && out.Keys == {"id"} + Catalog.AppKeys
                   && out["id"] == Str(rec.id)
                   && out["name"] == Catalog.FieldOrEmpty(rec.fields, "Name")
                   && out["industries"] == Catalog.FieldOrEmpty(rec.fields, "Industries")
                   && out["cost"] != Str("")
  {
    var q := MatchQuery(answers);
    match fetch(q)
    case Failed(_) => Fetched(q, Failure(FetchFailed))
    case Records(rs) => Fetched(q, Success(Catalog.TransformRecords(rs)))
  }

  /** Non-empty answers: the formula has the shape `OR(...)` and FINDs every answer value. */
  lemma MatchFormulaFindsEach(values: seq<string>, i: nat)
    requires i < |values|
    ensures Contains(MatchFormula(Some(values)), FindClause(values[i]))
  {
    var clauses := seq(|values|, j requires 0 <= j < |values| => FindClause(values[j]));
    JoinContains(clauses, ",", i);
    OccursInSuffix("OR(", Join(clauses, ","), clauses[i]);
    OccursInPrefix("OR(" + Join(clauses, ","), ")", clauses[i]);
  }

  /** An empty answer object still yields a formula: `OR()`. */
  lemma EmptyAnswersFormula()
    ensures MatchFormula(Some([])) == "OR()"
    ensures MatchFormula(None) == ""
  {
  }
}

=== FILE: analyze.dfy ===
/**
 * The quiz analysis endpoint (`POST /api/quiz/analyze`): request validation,
 * truncation of the list sent to the language model, selection between the
 * model's answer and the local fallback scorer, and the fallback scorer itself
 * (weighted substring matches, stable descending sort, top five).
 *
 * The language model is a function from the truncated school list to its
 * reply; the decoding of the `answers` field (a JSON string or an object) into
 * its `Object.values` sequence is a function too.
 */
module Analyze {
  import opened Wrappers
  import opened Text
  import opened Json
  import Sorting

  /** The placeholder key that counts as "no key configured". */
  const PlaceholderKey := "your-valid-openai-api-key-here"
  /** At most this many schools are sent to the language model. */
  const AiSchoolLimit := 50
  /** At most this many schools are recommended by the fallback. */
  const MatchLimit := 5
  const DefaultReason := "offers quality programs that match your career goals"
  const LocationReason := "located in your preferred area"
  const AnswersRequired := "Quiz answers are required"
  const SchoolsRequired := "Schools data is required and must be an array"
  const FailurePrefix := "Failed to analyze results: "
  /** The engine's messages for the two ways the scorer can throw; their exact wording is the engine's. */
  const NotAFunction := "toLowerCase is not a function"
  const NullSchool := "Cannot read properties of null (reading 'Pathway')"
  const NullBody := "Cannot destructure property 'answers' of 'body' as it is null."

  function Min(a: int, b: int): int {
    if a <= b then a else b
  }

  // ---------------------------------------------------------------------------
  // Scoring one school
  // ---------------------------------------------------------------------------

  /** The three array-valued columns the scorer reads, each with its weight and reason clause. */
  datatype TagColumn = PathwayColumn | IndustriesColumn | ProgramLengthColumn {
    function Key(): string {
      match this
      case PathwayColumn => "Pathway"
      case IndustriesColumn => "Industries"
      case ProgramLengthColumn => "Program Length"
    }

    function Weight(): nat {
      match this
      case PathwayColumn => 3
      case IndustriesColumn => 2
      case ProgramLengthColumn => 1
    }

    function Clause(tag: string): string {
      match this
      case PathwayColumn => "matches your interest in " + tag
      case IndustriesColumn => "aligns with " + tag + " field"
      case ProgramLengthColumn => "fits your preferred timeframe"
    }

    /**
     * A tag counts when the preferences contain it, lower-cased; a program
     * length tag also counts when the preferences mention "quick" and the tag
     * contains "Month" (case-sensitive).
     */
    predicate Hit(prefs: string, tag: string) {
      || Contains(prefs, Lower(tag))
      || (ProgramLengthColumn? && Contains(prefs, "quick") && Contains(tag, "Month"))
    }
  }

  /**
   * `Object.values(parsedAnswers).join(' ').toLowerCase()`: the answer values
   * joined by spaces (a `null` value joins as the empty string) and
   * lower-cased.
   */
  function Preferences(answers: seq<Value>): string {
    Lower(JoinValues(answers, " "))
  }

  /** The score and the reason list the scorer accumulates for one school. */
  datatype Tally = Tally(score: nat, reasons: seq<string>)

  /** `{ "0": items[0], "1": items[1], ... }`: how a string or array spreads into an object. */
  function Indexed(items: seq<Value>): map<string, Value>
    decreases |items|
  {
    if |items| == 0 then map[]
    else Indexed(items[..|items| - 1])[NatToString(|items| - 1) := items[|items| - 1]]
  }

  /** The own properties a school exposes to `school.X` reads and to `{...school}`. */
  function Props(school: Value): map<string, Value> {
    match school
    case Obj(m) => m
    case Str(s) => Indexed(seq(|s|, i requires 0 <= i < |s| => Str([s[i]])))
    case Arr(items) => Indexed(items)
    case _ => map[]
  }

  /** The tags of a column: its items when the column holds an array, otherwise none. */
  function TagsOf(col: TagColumn, props: map<string, Value>): seq<Value> {
    if col.Key() in props && props[col.Key()].Arr? then props[col.Key()].items else []
  }

  /** `forEach` over the tags from index i, adding the weight and one clause per hit. */
  function TallyTags(col: TagColumn, tags: seq<Value>, prefs: string, i: nat, acc: Tally): Result<Tally, string>
    requires i <= |tags|
    decreases |tags| - i
  {
    if i == |tags| then Success(acc)
    else if !tags[i].Str? then Failure(NotAFunction)
    else if col.Hit(prefs, tags[i].s) then
      TallyTags(col, tags, prefs, i + 1, Tally(acc.score + col.Weight(), acc.reasons + [col.Clause(tags[i].s)]))
    else TallyTags(col, tags, prefs, i + 1, acc)
  }

  function TallyColumn(col: TagColumn, props: map<string, Value>, prefs: string, acc: Tally): Result<Tally, string> {
    TallyTags(col, TagsOf(col, props), prefs, 0, acc)
  }

  /** The location check: the first comma segment of a truthy `Location`, lower-cased. */
  function TallyLocation(props: map<string, Value>, prefs: string, acc: Tally): Result<Tally, string> {
    var loc := Get(props, "Location");
    if !Present(loc) then Success(acc)
    else if !loc.value.Str? then Failure(NotAFunction)
    else if Contains(prefs, FirstSegment(Lower(loc.value.s), ',')) then
      Success(Tally(acc.score + 1, acc.reasons + [LocationReason]))
    else Success(acc)
  }

  /** The four checks in source order: pathway, industries, program length, location. */
  function TallySchool(props: map<string, Value>, prefs: string): Result<Tally, string> {
    var afterPathway :- TallyColumn(PathwayColumn, props, prefs, Tally(0, []));
    var afterIndustries :- TallyColumn(IndustriesColumn, props, prefs, afterPathway);
    var afterLength :- TallyColumn(ProgramLengthColumn, props, prefs, afterIndustries);
    TallyLocation(props, prefs, afterLength)
  }

  /** At most the first two reasons joined by " and ", or the default clause when there are none. */
  function Reasoning(reasons: seq<string>): string {
    var clauses := if |reasons| == 0 then [DefaultReason] else reasons;
    Join(clauses[..Min(2, |clauses|)], " and ")
  }

  /** A scored school: the school's own properties plus `score` and `reasoning`. */
  datatype Scored = Scored(fields: map<string, Value>, score: nat)

  function ScoreSchool(school: Value, prefs: string): Result<Scored, string> {
    if school.Null? then Failure(NullSchool)
    else
      var t :- TallySchool(Props(school), prefs);
      Success(Scored(Props(school)["score" := Num(t.score)]["reasoning" := Str(Reasoning(t.reasons))], t.score))
  }

  // ---------------------------------------------------------------------------
  // The reference definition of the score
  // ---------------------------------------------------------------------------

  /** How many of the tags are strings that hit. */
  function CountHits(col: TagColumn, tags: seq<Value>, prefs: string): nat {
    if |tags| == 0 then 0
    else (if tags[0].Str? && col.Hit(prefs, tags[0].s) then 1 else 0) + CountHits(col, tags[1..], prefs)
  }

  predicate AllStrings(tags: seq<Value>) {
    forall i :: 0 <= i < |tags| ==> tags[i].Str?
  }

  predicate LocationHit(props: map<string, Value>, prefs: string) {
    var loc := Get(props, "Location");
    Present(loc) && loc.value.Str? && Contains(prefs, FirstSegment(Lower(loc.value.s), ','))
  }

  /** The school can be scored without a type error. */
  predicate Scorable(props: map<string, Value>) {
    && AllStrings(TagsOf(PathwayColumn, props))
    && AllStrings(TagsOf(IndustriesColumn, props))
    && AllStrings(TagsOf(ProgramLengthColumn, props))
    && (Present(Get(props, "Location")) ==> Get(props, "Location").value.Str?)
  }

  /** 3 per pathway hit, 2 per industry hit, 1 per program length hit, 1 for a location hit. */
  function ExpectedScore(props: map<string, Value>, prefs: string): nat {
    3 * CountHits(PathwayColumn, TagsOf(PathwayColumn, props), prefs)
    + 2 * CountHits(IndustriesColumn, TagsOf(IndustriesColumn, props), prefs)
    + CountHits(ProgramLengthColumn, TagsOf(ProgramLengthColumn, props), prefs)
    + (if LocationHit(props, prefs) then 1 else 0)
  }

  /** The number of score increments, hence of reasons pushed. */
  function ExpectedHits(props: map<string, Value>, prefs: string): nat {
    CountHits(PathwayColumn, TagsOf(PathwayColumn, props), prefs)
    + CountHits(IndustriesColumn, TagsOf(IndustriesColumn, props), prefs)
    + CountHits(ProgramLengthColumn, TagsOf(ProgramLengthColumn, props), prefs)
    + (if LocationHit(props, prefs) then 1 else 0)
  }

  lemma {:induction false} TallyTagsCounts(col: TagColumn, tags: seq<Value>, prefs: string, i: nat, acc: Tally)
    requires i <= |tags|
    ensures TallyTags(col, tags, prefs, i, acc).Success? <==> AllStrings(tags[i..])
    ensures TallyTags(col, tags, prefs, i, acc).Success? ==>
              var t := TallyTags(col, tags, prefs, i, acc).value;
              && t.score == acc.score + col.Weight() * CountHits(col, tags[i..], prefs)
              && |t.reasons| == |acc.reasons| + CountHits(col, tags[i..], prefs)
              && t.reasons[..|acc.reasons|] == acc.reasons
    decreases |tags| - i
  {
    if i < |tags| {
      assert tags[i..][1..] == tags[i + 1..];
      assert tags[i..][0] == tags[i];
      if tags[i].Str? {
        var next := if col.Hit(prefs, tags[i].s)
          then Tally(acc.score + col.Weight(), acc.reasons + [col.Clause(tags[i].s)])
          else acc;
        TallyTagsCounts(col, tags, prefs, i + 1, next);
        assert AllStrings(tags[i..]) <==> AllStrings(tags[i + 1..]) by {
          if AllStrings(tags[i + 1..]) {
            forall j | 0 <= j < |tags[i..]| ensures tags[i..][j].Str? {
              if j > 0 { assert tags[i..][j] == tags[i + 1..][j - 1]; }
            }
          }
        }
        if TallyTags(col, tags, prefs, i + 1, next).Success? {
          var t := TallyTags(col, tags, prefs, i + 1, next).value;
          assert t.reasons[..|acc.reasons|] == t.reasons[..|next.reasons|][..|acc.reasons|];
        }
      } else {
        assert !AllStrings(tags[i..]) by { assert !tags[i..][0].Str?; }
      }
    }
  }

  /**
   * The scorer succeeds exactly when the school is scorable, its score is the
   * weighted sum of hits, and it pushes one reason per increment, so a school
   * scores above zero exactly when some reason was pushed.
   */
  lemma ScoreFormula(props: map<string, Value>, prefs: string)
    ensures TallySchool(props, prefs).Success? <==> Scorable(props)
    ensures TallySchool(props, prefs).Success? ==>
              && TallySchool(props, prefs).value.score == ExpectedScore(props, prefs)
              && |TallySchool(props, prefs).value.reasons| == ExpectedHits(props, prefs)
              && (TallySchool(props, prefs).value.score > 0 <==> |TallySchool(props, prefs).value.reasons| > 0)
  {
    var p := TagsOf(PathwayColumn, props);
    var n := TagsOf(IndustriesColumn, props);
    var l := TagsOf(ProgramLengthColumn, props);
    assert p[0..] == p && n[0..] == n && l[0..] == l;
    var t0 := Tally(0, []);
    TallyTagsCounts(PathwayColumn, p, prefs, 0, t0);
    var a := TallyColumn(PathwayColumn, props, prefs, t0);
    if a.Success? {
      TallyTagsCounts(IndustriesColumn, n, prefs, 0, a.value);
      var b := TallyColumn(IndustriesColumn, props, prefs, a.value);
      if b.Success? {
        TallyTagsCounts(ProgramLengthColumn, l, prefs, 0, b.value);
      }
    }
  }

  /** A school with none of the four scored columns scores 0 and gets the default reasoning. */
  lemma UntaggedScoresZero(props: map<string, Value>, prefs: string)
    requires "Pathway" !in props && "Industries" !in props && "Program Length" !in props && "Location" !in props
    ensures ScoreSchool(Obj(props), prefs)
         == Success(Scored(props["score" := Num(0)]["reasoning" := Str(DefaultReason)], 0))
  {
    var empty := Tally(0, []);
    assert TagsOf(PathwayColumn, props) == [] && TagsOf(IndustriesColumn, props) == [];
    assert TagsOf(ProgramLengthColumn, props) == [];
    assert TallySchool(props, prefs) == Success(empty);
    ReasoningClauses([]);
  }

  /** `{...school, score, reasoning}`: the school's own keys kept unchanged, `score` and `reasoning` set. */
  lemma ScoredShape(school: Value, prefs: string)
    requires ScoreSchool(school, prefs).Success?
    ensures var r := ScoreSchool(school, prefs).value;
            var t := TallySchool(Props(school), prefs).value;
            && r.fields.Keys == Props(school).Keys + {"score", "reasoning"}
            && (forall k :: k in Props(school) && k != "score" && k != "reasoning" ==> r.fields[k] == Props(school)[k])
            && r.fields["score"] == Num(r.score)
            && r.score == ExpectedScore(Props(school), prefs)
            && r.fields["reasoning"] == Str(Reasoning(t.reasons))
  {
    ScoreFormula(Props(school), prefs);
  }

  /** The reasoning is the default clause exactly when nothing matched, and at most two clauses otherwise. */
  lemma ReasoningClauses(reasons: seq<string>)
    ensures |reasons| == 0 ==> Reasoning(reasons) == DefaultReason
    ensures |reasons| == 1 ==> Reasoning(reasons) == reasons[0]
    ensures |reasons| >= 2 ==> Reasoning(reasons) == reasons[0] + " and " + reasons[1]
  {
    if |reasons| >= 2 {
      assert reasons[..2][1..] == [reasons[1]];
    }
  }

  // ---------------------------------------------------------------------------
  // Ranking
  // ---------------------------------------------------------------------------

  const ScoreKey: Scored -> int := (s: Scored) => s.score as int

  /** Score every school, in order; the first school that throws makes the whole scoring throw. */
  function ScoreAll(schools: seq<Value>, prefs: string): (r: Result<seq<Scored>, string>)
    ensures r.Success? <==> forall i :: 0 <= i < |schools| ==> ScoreSchool(schools[i], prefs).Success?
    ensures r.Success? ==> |r.value| == |schools|
    ensures r.Success? ==> forall i :: 0 <= i < |schools| ==> r.value[i] == ScoreSchool(schools[i], prefs).value
  {
    if |schools| == 0 then Success([])
    else
      var head :- ScoreSchool(schools[0], prefs);
      var rest :- ScoreAll(schools[1..], prefs);
      assert forall i :: 1 <= i < |schools| ==> schools[i] == schools[1..][i - 1];
      Success([head] + rest)
  }

  /**
   * The stable descending sort by score, cut to the first five: the five kept
   * are sorted, come from the input, are at least as good as every school left
   * out, and keep input order among equal scores.
   */
  function Rank(scored: seq<Scored>): (top: seq<Scored>)
    ensures |top| == Min(MatchLimit, |scored|)
    ensures Sorting.SortedDesc(top, ScoreKey)
    ensures forall i, j :: 0 <= i < j < |top| ==> top[i].score >= top[j].score
    ensures multiset(top) <= multiset(scored)
    ensures forall t :: t in top ==> t in scored
    ensures forall y, t :: y in multiset(scored) - multiset(top) && t in top ==> y.score <= t.score
    ensures forall k :: Sorting.WithKey(top, ScoreKey, k) <= Sorting.WithKey(scored, ScoreKey, k)
  {
    var sorted := Sorting.SortDesc(scored, ScoreKey);
    var n := Min(MatchLimit, |sorted|);
    Sorting.PrefixOfSorted(sorted, n, ScoreKey);
    Sorting.DroppedAreNotGreater(sorted, n, ScoreKey);
    assert sorted == sorted[..n] + sorted[n..];
    assert multiset(sorted) == multiset(sorted[..n]) + multiset(sorted[n..]);
    assert forall i, j :: 0 <= i < j < n ==> ScoreKey(sorted[i]) >= ScoreKey(sorted[j]);
    assert forall t :: t in sorted[..n] ==> t in multiset(scored);
    sorted[..n]
  }

  // ---------------------------------------------------------------------------
  // The fallback analysis
  // ---------------------------------------------------------------------------

  /**
   * `${answersArray[i]}`: the i-th answer value as `String` renders it (a
   * `null` value becomes "null"), or "undefined" past the end.
   */
  function AnswerAt(answers: seq<Value>, i: nat): string {
    if i < |answers| then ToText(answers[i]) else "undefined"
  }

  const Narrative0 := "Based on your quiz responses, you have indicated a preference for "
  const Narrative1 := " work environments and "
  const Narrative2 := " activities. Your answers suggest you value "
  const Narrative3 := " approaches to learning and prioritize "
  const Narrative4 := " in your career decisions. With "
  const Narrative5 := " technical skills and seeking "

  /** The closing piece, in short fragments. */
  const Narrative6 :=
    Closing0 + Closing1 + Closing2 + Closing3 + Closing4 + Closing5 + Closing6 + Closing7 +
    Closing8 + Closing9 + Closing10 + Closing11 + Closing12
  const Closing0 := " program durations, you appear well-suited for"
  const Closing1 := " trade school programs that offer hands-on training"
  const Closing2 := " and practical career preparation. These preferences"
  const Closing3 := " suggest you would thrive in vocational education"
  const Closing4 := " settings that provide structured learning paths,"
  const Closing5 := " real-world skill development, and direct pathways"
  const Closing6 := " to stable employment. The schools recommended"
  const Closing7 := " below have been carefully selected to align with"
  const Closing8 := " your work style preferences, career goals, and"
  const Closing9 := " educational needs. Each offers programs that"
  const Closing10 := " match your interests while providing the support"
  const Closing11 := " and flexibility you're looking for in your career"
  const Closing12 := " education journey."

  /** The text between the substituted answers: piece k precedes answer k, piece 6 ends the text. */
  function Narrative(k: nat): string
    requires k <= 6
  {
    match k
    case 0 => Narrative0
    case 1 => Narrative1
    case 2 => Narrative2
    case 3 => Narrative3
    case 4 => Narrative4
    case 5 => Narrative5
    case _ => Narrative6
  }

  /** The narrative from piece k onwards, with answers k..5 substituted in. */
  function FillFrom(answers: seq<Value>, k: nat): string
    requires k <= 6
    decreases 6 - k
  {
    if k == 6 then Narrative(6) else Narrative(k) + AnswerAt(answers, k) + FillFrom(answers, k + 1)
  }

  /** The fixed narrative with the first six answer values substituted in. */
  function AnalysisText(answers: seq<Value>): string {
    FillFrom(answers, 0)
  }

  /** Every one of the first six answer values appears literally in the narrative. */
  lemma AnalysisMentionsAnswers(answers: seq<Value>, i: nat)
    requires i < 6
    ensures Contains(AnalysisText(answers), AnswerAt(answers, i))
  {
    FillMentions(answers, 0, i);
  }

  lemma {:induction false} FillMentions(answers: seq<Value>, k: nat, i: nat)
    requires k <= i < 6
    ensures Contains(FillFrom(answers, k), AnswerAt(answers, i))
    decreases 6 - k
  {
    var head, here, rest := Narrative(k), AnswerAt(answers, k), FillFrom(answers, k + 1);
    assert FillFrom(answers, k) == head + here + rest;
    if i == k {
      OccursAfter(head, here, rest);
    } else {
      FillMentions(answers, k + 1, i);
      OccursInSuffix(head + here, rest, AnswerAt(answers, i));
    }
  }

  /**
   * A `null` first answer is rendered two ways: the preference string joins
   * it as nothing, while the narrative writes it out as "null".
   */
  lemma NullAnswerRenderings(rest: seq<Value>)
    ensures Preferences([Null]) == ""
    ensures |rest| > 0 ==> Preferences([Null] + rest) == Lower(" " + JoinValues(rest, " "))
    ensures AnalysisText([Null] + rest)[..|Narrative0| + 4] == Narrative0 + "null"
  {
    JoinAfterNull(rest);
    NarrativeOpensWith([Null] + rest);
  }

  /** A leading `null` joins as the empty string. */
  lemma JoinAfterNull(rest: seq<Value>)
    ensures JoinValues([Null] + rest, " ") == if |rest| == 0 then "" else " " + JoinValues(rest, " ")
  {
    var answers := [Null] + rest;
    assert answers[1..] == rest;
    if |rest| > 0 {
      assert answers[0].Null? && |answers| > 1;
      assert JoinValues(answers, " ") == "" + " " + JoinValues(answers[1..], " ");
      assert "" + " " == " ";
    } else {
      assert answers == [Null];
    }
  }

  /** The narrative opens with its first fixed fragment and the first answer. */
  lemma NarrativeOpensWith(answers: seq<Value>)
    ensures AnalysisText(answers)[..|Narrative0| + |AnswerAt(answers, 0)|] == Narrative0 + AnswerAt(answers, 0)
  {
    var head, here, rest := Narrative(0), AnswerAt(answers, 0), FillFrom(answers, 1);
    assert AnalysisText(answers) == head + here + rest;
    PrefixOfJoined(head + here, rest);
  }

  /** What the endpoint answers with: the ordered matches and the analysis text. */
  datatype Recommendation = Recommendation(matches: Value, analysis: Value) {
    function Body(): Value {
      Obj(map["matches" := matches, "analysis" := analysis])
    }
  }

  /** The objects of the ranked schools, in ranked order. */
  function MatchObjects(top: seq<Scored>): (r: seq<Value>)
    ensures |r| == |top|
    ensures forall i :: 0 <= i < |top| ==> r[i] == Obj(top[i].fields)
  {
    seq(|top|, i requires 0 <= i < |top| => Obj(top[i].fields))
  }

  /** The local recommendation: score every school, rank, keep five, add the narrative. */
  function Fallback(schools: seq<Value>, answers: seq<Value>): (r: Result<Recommendation, string>)
    ensures r.Success? <==> forall i :: 0 <= i < |schools| ==> ScoreSchool(schools[i], Preferences(answers)).Success?
    ensures r.Success? ==> r.value.matches.Arr? && |r.value.matches.items| == Min(MatchLimit, |schools|)
    ensures r.Success? ==> r.value.analysis == Str(AnalysisText(answers))
  {
    var prefs := Preferences(answers);
    var scored :- ScoreAll(schools, prefs);
    var top := Rank(scored);
    Success(Recommendation(Arr(MatchObjects(top)), Str(AnalysisText(answers))))
  }

  /**
   * Every recommended school is one of the input schools scored, the list is
   * non-increasing in score, no school left out outscores one kept, and
   * schools with equal scores keep their input order.
   */
  lemma FallbackRanking(schools: seq<Value>, answers: seq<Value>)
    requires forall i :: 0 <= i < |schools| ==> ScoreSchool(schools[i], Preferences(answers)).Success?
    ensures var prefs := Preferences(answers);
            var scored := ScoreAll(schools, prefs).value;
            var top := Rank(scored);
            && Fallback(schools, answers).value.matches == Arr(MatchObjects(top))
            && (forall t :: t in top ==> exists i :: 0 <= i < |schools| && t == ScoreSchool(schools[i], prefs).value)
            && (forall i, j :: 0 <= i < j < |top| ==> top[i].score >= top[j].score)
            && (forall y, t :: y in multiset(scored) - multiset(top) && t in top ==> y.score <= t.score)
            && (forall k :: Sorting.WithKey(top, ScoreKey, k) <= Sorting.WithKey(scored, ScoreKey, k))
  {
    var prefs := Preferences(answers);
    var all := ScoreAll(schools, prefs);
    assert all.Success?;
    var top := Rank(all.value);
    assert Fallback(schools, answers) == Success(Recommendation(Arr(MatchObjects(top)), Str(AnalysisText(answers))));
    RankedAreScoredInputs(schools, prefs);
  }

  /** Every ranked school is the scored form of some input school. */
  lemma RankedAreScoredInputs(schools: seq<Value>, prefs: string)
    requires forall i :: 0 <= i < |schools| ==> ScoreSchool(schools[i], prefs).Success?
    ensures forall t :: t in Rank(ScoreAll(schools, prefs).value) ==>
              exists i :: 0 <= i < |schools| && t == ScoreSchool(schools[i], prefs).value
  {
    var scored := ScoreAll(schools, prefs).value;
    forall t | t in Rank(scored) ensures exists i :: 0 <= i < |schools| && t == ScoreSchool(schools[i], prefs).value {
      assert t in scored;
      var i :| 0 <= i < |scored| && scored[i] == t;
      assert t == ScoreSchool(schools[i], prefs).value;
    }
  }

  // ---------------------------------------------------------------------------
  // The language-model path and the endpoint
  // ---------------------------------------------------------------------------

  /** The model's reply: a thrown call or unparseable content, or the parsed JSON content. */
  datatype AiReply = AiThrew(message: string) | AiReturned(content: Value)

  /** The shape check: an object with a truthy `analysis` and a truthy `recommendedSchools`. */
  function AcceptAi(reply: AiReply): (r: Option<Recommendation>)
    ensures r.Some? <==> reply.AiReturned? && reply.content.Obj?
                         && Present(Get(reply.content.fields, "analysis"))
                         && Present(Get(reply.content.fields, "recommendedSchools"))
    ensures r.Some? ==> r.value.matches == reply.content.fields["recommendedSchools"]
                        && r.value.analysis == reply.content.fields["analysis"]
  {
    match reply
    case AiThrew(_) => None
    case AiReturned(v) =>
      if v.Obj? && Present(Get(v.fields, "analysis")) && Present(Get(v.fields, "recommendedSchools"))
      then Some(Recommendation(v.fields["recommendedSchools"], v.fields["analysis"]))
      else None
  }

  /** A configured key: present, non-empty and not the placeholder. */
  predicate KeyUsable(apiKey: Option<string>) {
    apiKey.Some? && apiKey.value != "" && apiKey.value != PlaceholderKey
  }

  /** Which way the request went. */
  datatype Path = Rejected | Primary | FallbackPath | Failed

  /** The response, the path taken, and the school list handed to the model if it was called. */
  datatype Outcome = Outcome(response: Response, path: Path, aiRequest: Option<seq<Value>>)

  /** The schools array of a body that passed validation. */
  predicate HasSchoolArray(body: Value) {
    Present(Prop(body, "schools")) && Prop(body, "schools").value.Arr?
  }

  function SchoolArray(body: Value): seq<Value>
    requires HasSchoolArray(body)
  {
    Prop(body, "schools").value.items
  }

  /**
   * `getFallbackAnalysis`: `values` stands for `Object.values` of the parsed
   * answers, which throws on `null`; it runs before any school is scored. A
   * throw anywhere ends in the handler's 500 reply.
   */
  function FallbackResponse(schools: seq<Value>, parsed: Value, values: Value -> Result<seq<Value>, string>): (r: Response)
    ensures values(parsed).Failure? ==> r == Response(500, ErrorBody(FailurePrefix + values(parsed).error))
    ensures values(parsed).Success? && Fallback(schools, values(parsed).value).Success? ==>
              r == Response(200, Fallback(schools, values(parsed).value).value.Body())
    ensures values(parsed).Success? && Fallback(schools, values(parsed).value).Failure? ==>
              r == Response(500, ErrorBody(FailurePrefix + Fallback(schools, values(parsed).value).error))
    ensures r.status in {200, 500}
  {
    match values(parsed)
    case Failure(m) => Response(500, ErrorBody(FailurePrefix + m))
    case Success(answers) =>
      match Fallback(schools, answers)
      case Success(rec) => Response(200, rec.Body())
      case Failure(m) => Response(500, ErrorBody(FailurePrefix + m))
  }

  function FallbackOutcome(schools: seq<Value>, parsed: Value, values: Value -> Result<seq<Value>, string>,
                           aiRequest: Option<seq<Value>>): Outcome {
    var resp := FallbackResponse(schools, parsed, values);
    Outcome(resp, if resp.status == 200 then FallbackPath else Failed, aiRequest)
  }

  /** `typeof answers === "string" ? JSON.parse(answers) : answers`, with `parse` standing for `JSON.parse`. */
  function ParseAnswers(answers: Value, parse: string -> Result<Value, string>): Result<Value, string> {
    if answers.Str? then parse(answers.s) else Success(answers)
  }

  /** A body that passes both 400 checks. */
  predicate Admitted(body: Result<Value, string>) {
    body.Success? && !body.value.Null? && Present(Prop(body.value, "answers")) && HasSchoolArray(body.value)
  }

  /** The parsed answers of an admitted body. */
  function Parsed(body: Result<Value, string>, parse: string -> Result<Value, string>): Result<Value, string>
    requires Admitted(body)
  {
    ParseAnswers(Prop(body.value, "answers").value, parse)
  }

  /** The schools sent to the model: the first min(50, n). */
  function ForAi(body: Result<Value, string>): seq<Value>
    requires Admitted(body)
  {
    SchoolArray(body.value)[..Min(AiSchoolLimit, |SchoolArray(body.value)|)]
  }

  /**
   * `POST /api/quiz/analyze`. `body` is the parsed request body or the
   * parser's error message; `parse` is `JSON.parse`, `values` is
   * `Object.values` of the parsed answers, and `ai` is the language model,
   * given the schools and the parsed answers of its prompt.
   */
  function Route(body: Result<Value, string>, apiKey: Option<string>,
                 parse: string -> Result<Value, string>, values: Value -> Result<seq<Value>, string>,
                 ai: (seq<Value>, Value) -> AiReply): (o: Outcome)
    ensures body.Failure? ==> o.response == Response(500, ErrorBody(FailurePrefix + body.error)) && o.aiRequest.None?
    ensures body.Success? && body.value.Null? ==> o.response.status == 500 && o.aiRequest.None?
    ensures body.Success? && !body.value.Null? && !Present(Prop(body.value, "answers")) ==>
              o.response == Response(400, ErrorBody(AnswersRequired)) && o.path == Rejected
    ensures body.Success? && !body.value.Null? && Present(Prop(body.value, "answers")) && !HasSchoolArray(body.value) ==>
              o.response == Response(400, ErrorBody(SchoolsRequired)) && o.path == Rejected
    ensures o.path == Rejected <==> o.response.status == 400
    ensures Admitted(body) && Parsed(body, parse).Failure? ==>
              o.response == Response(500, ErrorBody(FailurePrefix + Parsed(body, parse).error)) && o.aiRequest.None?
    ensures Admitted(body) && Parsed(body, parse).Success? && KeyUsable(apiKey) ==> o.aiRequest == Some(ForAi(body))
    ensures Admitted(body) && Parsed(body, parse).Success? && KeyUsable(apiKey)
            && AcceptAi(ai(ForAi(body), Parsed(body, parse).value)).Some? ==>
              && o.path == Primary
              && o.response == Response(200, AcceptAi(ai(ForAi(body), Parsed(body, parse).value)).value.Body())
    ensures o.aiRequest.Some? ==> KeyUsable(apiKey) && Admitted(body) && o.aiRequest.value == ForAi(body)
    ensures o.path == Primary ==> o.aiRequest.Some? && o.response.status == 200
    ensures o.path == FallbackPath ==>
              && Admitted(body) && Parsed(body, parse).Success?
              && o.response == FallbackResponse(SchoolArray(body.value), Parsed(body, parse).value, values)
              && o.response.status == 200
              && (o.aiRequest.Some? ==> AcceptAi(ai(ForAi(body), Parsed(body, parse).value)).None?)
  {
    match body
    case Failure(m) => Outcome(Response(500, ErrorBody(FailurePrefix + m)), Failed, None)
    case Success(v) =>
      if v.Null? then Outcome(Response(500, ErrorBody(FailurePrefix + NullBody)), Failed, None)
      else if !Present(Prop(v, "answers")) then Outcome(Response(400, ErrorBody(AnswersRequired)), Rejected, None)
      else if !HasSchoolArray(v) then Outcome(Response(400, ErrorBody(SchoolsRequired)), Rejected, None)
      else
        match ParseAnswers(Prop(v, "answers").value, parse)
        case Failure(m) => Outcome(Response(500, ErrorBody(FailurePrefix + m)), Failed, None)
        case Success(parsed) =>
          var schools := SchoolArray(v);
          var forAi := schools[..Min(AiSchoolLimit, |schools|)];
          if !KeyUsable(apiKey) then FallbackOutcome(schools, parsed, values, None)
          else
            match AcceptAi(ai(forAi, parsed))
            case Some(rec) => Outcome(Response(200, rec.Body()), Primary, Some(forAi))
            case None => FallbackOutcome(schools, parsed, values, Some(forAi))
  }

  /** Without a usable key the model is never called and the fallback answers (or the scorer throws). */
  lemma NoKeyMeansFallback(body: Result<Value, string>, apiKey: Option<string>,
                           parse: string -> Result<Value, string>, values: Value -> Result<seq<Value>, string>,
                           ai: (seq<Value>, Value) -> AiReply)
    requires !KeyUsable(apiKey)
    requires Admitted(body) && Parsed(body, parse).Success?
    ensures Route(body, apiKey, parse, values, ai).aiRequest.None?
    ensures Route(body, apiKey, parse, values, ai).path in {FallbackPath, Failed}
    ensures Route(body, apiKey, parse, values, ai).response
         == FallbackResponse(SchoolArray(body.value), Parsed(body, parse).value, values)
  {
  }

  /** With a usable key, a reply that fails the shape check falls back on the full, untruncated list. */
  lemma RejectedReplyMeansFallback(body: Result<Value, string>, apiKey: Option<string>,
                                   parse: string -> Result<Value, string>, values: Value -> Result<seq<Value>, string>,
                                   ai: (seq<Value>, Value) -> AiReply)
    requires KeyUsable(apiKey)
    requires Admitted(body) && Parsed(body, parse).Success?
    requires AcceptAi(ai(ForAi(body), Parsed(body, parse).value)).None?
    ensures Route(body, apiKey, parse, values, ai).path != Primary
    ensures Route(body, apiKey, parse, values, ai).aiRequest == Some(ForAi(body))
    ensures Route(body, apiKey, parse, values, ai).response
         == FallbackResponse(SchoolArray(body.value), Parsed(body, parse).value, values)
  {
  }

  /**
   * With a usable key and an accepted reply the primary path answers, and
   * `Object.values` of the answers plays no part: any `values` gives the same
   * outcome, even one that throws (as it does on `null` answers).
   */
  lemma AcceptedReplyIsPrimary(body: Result<Value, string>, apiKey: Option<string>,
                               parse: string -> Result<Value, string>,
                               values: Value -> Result<seq<Value>, string>,
                               otherValues: Value -> Result<seq<Value>, string>,
                               ai: (seq<Value>, Value) -> AiReply)
    requires KeyUsable(apiKey)
    requires Admitted(body) && Parsed(body, parse).Success?
    requires AcceptAi(ai(ForAi(body), Parsed(body, parse).value)).Some?
    ensures Route(body, apiKey, parse, values, ai).path == Primary
    ensures Route(body, apiKey, parse, values, ai) == Route(body, apiKey, parse, otherValues, ai)
  {
  }
}

=== FILE: authconfig.dfy ===
/**
 * The credentials provider and the two callbacks of the session
 * configuration: `authorize` checks an e-mail/password pair against the
 * user table, `jwt` fills the token and `session` copies the id into the
 * session user. Password comparison is a parameter.
 */
module AuthConfig {
  import opened Wrappers
  import opened Text
  import opened Json
  import opened UserStore

  const MissingCredentials := "Missing credentials."
  const InvalidCredentials := "Invalid credentials."

  /** The user object `authorize` hands back: no password, no role. */
  datatype SignedInUser = SignedInUser(id: nat, email: string, name: string)

  /** A credential field; absent reads as the empty string. */
  function Credential(credentials: Option<map<string, string>>, key: string): string {
    if credentials.Some? && key in credentials.value then credentials.value[key] else ""
  }

  /**
   * `authorize(credentials)`: missing fields fail before the table is read;
   * an unknown address and a wrong password fail alike; otherwise the user's
   * id, e-mail and name.
   */
  function Authorize(credentials: Option<map<string, string>>, users: Store,
                     compare: (string, string) -> bool): (r: Result<SignedInUser, string>)
    ensures Credential(credentials, "email") == "" || Credential(credentials, "password") == "" ==>
              r == Failure(MissingCredentials)
    ensures r.Failure? ==> r.error == MissingCredentials || r.error == InvalidCredentials
    ensures r.Success? <==>
              && Credential(credentials, "email") != "" && Credential(credentials, "password") != ""
              && FindByEmail(users, Credential(credentials, "email")).Some?
              && compare(Credential(credentials, "password"), FindByEmail(users, Credential(credentials, "email")).value.password)
    ensures r.Success? ==>
              var u := FindByEmail(users, Credential(credentials, "email")).value;
              r.value == SignedInUser(u.id, u.email, u.name) && r.value.email == Credential(credentials, "email")
  {
    var email := Credential(credentials, "email");
    var password := Credential(credentials, "password");
    if email == "" || password == "" then Failure(MissingCredentials)
    else match FindByEmail(users, email)
      case None => Failure(InvalidCredentials)
      case Some(u) =>
        if !compare(password, u.password) then Failure(InvalidCredentials)
        else Success(SignedInUser(u.id, u.email, u.name))
  }

  /** Missing credentials are reported without consulting the table or the comparison. */
  lemma MissingCredentialsIgnoreStore(credentials: Option<map<string, string>>, a: Store, b: Store,
                                      compareA: (string, string) -> bool, compareB: (string, string) -> bool)
    requires Credential(credentials, "email") == "" || Credential(credentials, "password") == ""
    ensures Authorize(credentials, a, compareA) == Authorize(credentials, b, compareB) == Failure(MissingCredentials)
  {
  }

  /** An unknown address and a known address with a wrong password fail with the same message. */
  lemma UnknownAndWrongPasswordAlike(credentials: Option<map<string, string>>, unknownIn: Store, knownIn: Store,
                                     compare: (string, string) -> bool)
    requires Credential(credentials, "email") != "" && Credential(credentials, "password") != ""
    requires !Registered(unknownIn, Credential(credentials, "email"))
    requires Registered(knownIn, Credential(credentials, "email"))
    requires !compare(Credential(credentials, "password"), FindByEmail(knownIn, Credential(credentials, "email")).value.password)
    ensures Authorize(credentials, unknownIn, compare) == Authorize(credentials, knownIn, compare) == Failure(InvalidCredentials)
  {
  }

  /** The user object as the callbacks see it. */
  function UserObject(u: SignedInUser): (v: Value)
    ensures v.Obj? && v.fields.Keys == {"id", "email", "name"} && !("password" in v.fields)
  {
    Obj(map["id" := Num(u.id), "email" := Str(u.email), "name" := Str(u.name)])
  }

  /** `target[key] = value` where an undefined value leaves the key absent. */
  function Assign(target: map<string, Value>, key: string, value: Option<Value>): (r: map<string, Value>)
    ensures value.Some? ==> r == target[key := value.value]
    ensures value.None? ==> r == target - {key}
  {
    if value.Some? then target[key := value.value] else target - {key}
  }

  /** A user's role as stored: `null` when unset. */
  function RoleValue(u: User): Value {
    if u.role.Some? then Str(u.role.value) else Null
  }

  /**
   * The `jwt` callback. On sign-in the user's id and role are copied (the
   * signed-in user carries no role, so role ends up unset). Later, a token
   * with an address but no truthy role is completed from the table: the
   * role and the id rendered as a decimal string.
   */
  function Jwt(token: map<string, Value>, user: Option<Value>, users: Store): (r: map<string, Value>)
    ensures Present(user) ==>
              && r == Assign(Assign(token, "id", Prop(user.value, "id")), "role", Prop(user.value, "role"))
              && (forall k :: k in token && k != "id" && k != "role" ==> k in r && r[k] == token[k])
    ensures !Present(user) && Present(Get(token, "role")) ==> r == token
    ensures !Present(user) && !Present(Get(token, "email")) ==> r == token
    ensures !Present(user) && !Present(Get(token, "role")) && Present(Get(token, "email")) ==>
              if token["email"].Str? && FindByEmail(users, token["email"].s).Some? then
                var u := FindByEmail(users, token["email"].s).value;
                r == token["role" := RoleValue(u)]["id" := Str(NatToString(u.id))]
              else r == token
  {
    if Present(user) then
      Assign(Assign(token, "id", Prop(user.value, "id")), "role", Prop(user.value, "role"))
    else if !Present(Get(token, "role")) && Present(Get(token, "email")) then
      var email := token["email"];
      var found := if email.Str? then FindByEmail(users, email.s) else None;
      match found
      case None => token
      case Some(u) => token["role" := RoleValue(u)]["id" := Str(NatToString(u.id))]
    else token
  }

  /** Signing in with an `authorize` result puts its numeric id in the token and leaves no role. */
  lemma SignInToken(token: map<string, Value>, u: SignedInUser, users: Store)
    ensures var r := Jwt(token, Some(UserObject(u)), users);
            r["id"] == Num(u.id) && "role" !in r
  {
  }

  /** A later refresh of that token finds the role in the table and replaces the id by its decimal string. */
  lemma RefreshAfterSignIn(token: map<string, Value>, u: SignedInUser, users: Store)
    requires Registered(users, u.email) && u.email != ""
    ensures var signedIn := Jwt(token["email" := Str(u.email)], Some(UserObject(u)), users);
            var refreshed := Jwt(signedIn, None, users);
            var row := FindByEmail(users, u.email).value;
            refreshed["id"] == Str(NatToString(row.id)) && refreshed["role"] == RoleValue(row)
  {
    var signedIn := Jwt(token["email" := Str(u.email)], Some(UserObject(u)), users);
    assert "role" !in signedIn && signedIn["email"] == Str(u.email);
  }

  /** The `session` callback: the session user's id becomes the token's id; nothing else changes. */
  function Session(session: map<string, Value>, token: map<string, Value>): (r: map<string, Value>)
    requires "user" in session && session["user"].Obj?
    ensures r.Keys == session.Keys
    ensures forall k :: k in session && k != "user" ==> r[k] == session[k]
    ensures r["user"].Obj? && Get(r["user"].fields, "id") == Get(token, "id")
    ensures forall k :: k in session["user"].fields && k != "id" ==> k in r["user"].fields && r["user"].fields[k] == session["user"].fields[k]
  {
    session["user" := Obj(Assign(session["user"].fields, "id", Get(token, "id")))]
  }
}

=== FILE: authform.dfy ===
/**
 * The login/signup form: field validation (including the unanchored
 * `\S+@\S+\.\S+` email test), the submit flow over the signup request and
 * the credentials sign-in, and clearing a field's error on edit.
 */
module AuthForm {
  import opened Wrappers
  import opened Text
  import opened Json

  datatype Mode = Login | Signup

  const EmailRequired := "Email is required"
  const EmailInvalid := "Please enter a valid email"
  const PasswordRequired := "Password is required"
  const PasswordTooShort := "Password must be at least 8 characters"
  const NameRequired := "Name is required"
  const InvalidCredentials := "Invalid credentials"
  const SignupFailed := "Failed to sign up"
  const DashboardPath := "/dashboard"
  const MinPasswordLength := 8
  /** The engine's message for reading `error` off a `null` reply body. */
  const NullErrorBody := "Cannot read properties of null (reading 'error')"

  /** The form's fields by name; an absent field reads as the empty string. */
  type Form = map<string, string>

  function Field(form: Form, name: string): string {
    if name in form then form[name] else ""
  }

  // ---------------------------------------------------------------------------
  // The email pattern
  // ---------------------------------------------------------------------------

  /**
   * `\S+@\S+\.\S+` matches somewhere in `s` with the `@` at `a` and the `.`
   * at `d`: a non-space before the `@`, only non-spaces (at least one)
   * between them, and a non-space after the `.`.
   */
  ghost predicate MatchAt(s: string, a: int, d: int) {
    && 1 <= a && a + 1 < d && d + 1 < |s|
    && s[a] == '@' && s[d] == '.'
    && !IsWhitespace(s[a - 1])
    && (forall k :: a < k < d ==> !IsWhitespace(s[k]))
    && !IsWhitespace(s[d + 1])
  }

  /** The unanchored test `/\S+@\S+\.\S+/.test(s)`. */
  ghost predicate EmailPattern(s: string) {
    exists a, d :: MatchAt(s, a, d)
  }

  /**
   * One left-to-right pass. `runStart` is where the current run of
   * non-spaces began and `at` is the first `@` of that run that has a
   * non-space before it; a `.` at `i` completes a match when such an `@` lies
   * at least two places back and a non-space follows.
   */
  method IsEmail(s: string) returns (ok: bool)
    ensures ok <==> EmailPattern(s)
  {
    var runStart := 0;
    var at: Option<nat> := None;
    var i := 0;
    while i < |s|
      invariant 0 <= runStart <= i <= |s|
      invariant runStart == 0 || IsWhitespace(s[runStart - 1])
      invariant forall k :: runStart <= k < i ==> !IsWhitespace(s[k])
      invariant at.None? ==> forall k :: runStart < k < i ==> s[k] != '@'
      invariant at.Some? ==> runStart < at.value < i && s[at.value] == '@'
      invariant at.Some? ==> forall k :: runStart < k < at.value ==> s[k] != '@'
      invariant forall a, d :: d < i ==> !MatchAt(s, a, d)
    {
      if IsWhitespace(s[i]) {
        forall a, d | d == i ensures !MatchAt(s, a, d) { }
        runStart, at := i + 1, None;
      } else {
        if s[i] == '.' && at.Some? && at.value + 1 < i && i + 1 < |s| && !IsWhitespace(s[i + 1]) {
          assert MatchAt(s, at.value, i);
          return true;
        }
        forall a, d | d == i ensures !MatchAt(s, a, d) { }
        if s[i] == '@' && i > runStart && at.None? {
          at := Some(i);
        }
      }
      i := i + 1;
    }
    return false;
  }

  // ---------------------------------------------------------------------------
  // Validation
  // ---------------------------------------------------------------------------

  /** Reference: the email error for a given field value. */
  ghost function EmailError(email: string): Option<string> {
    if email == "" then Some(EmailRequired)
    else if !EmailPattern(email) then Some(EmailInvalid)
    else None
  }

  /** Reference: the password error; the length counts characters. */
  function PasswordError(password: string): Option<string> {
    if password == "" then Some(PasswordRequired)
    else if |password| < MinPasswordLength then Some(PasswordTooShort)
    else None
  }

  /** Reference: the errors of a form, each field judged on its own. */
  ghost function ValidationErrors(form: Form, mode: Mode): map<string, string> {
    var email := EmailError(Field(form, "email"));
    var password := PasswordError(Field(form, "password"));
    var withEmail: map<string, string> := if email.Some? then map["email" := email.value] else map[];
    var withPassword := if password.Some? then withEmail["password" := password.value] else withEmail;
    if mode == Signup && Field(form, "name") == "" then withPassword["name" := NameRequired] else withPassword
  }

  /**
   * The checks of `handleSubmit`: each field gets its own error independently
   * of the others, and the name is checked only when signing up.
   */
  method Validate(form: Form, mode: Mode) returns (errors: map<string, string>)
    ensures errors.Keys <= {"email", "password", "name"}
    ensures "email" in errors <==> EmailError(Field(form, "email")).Some?
    ensures "email" in errors ==> errors["email"] == EmailError(Field(form, "email")).value
    ensures "password" in errors <==> PasswordError(Field(form, "password")).Some?
    ensures "password" in errors ==> errors["password"] == PasswordError(Field(form, "password")).value
    ensures "name" in errors <==> mode == Signup && Field(form, "name") == ""
    ensures "name" in errors ==> errors["name"] == NameRequired
    ensures errors == ValidationErrors(form, mode)
  {
    errors := map[];
    var email := Field(form, "email");
    if email == "" {
      errors := errors["email" := EmailRequired];
    } else {
      var ok := IsEmail(email);
      if !ok {
        errors := errors["email" := EmailInvalid];
      }
    }
    var password := Field(form, "password");
    if password == "" {
      errors := errors["password" := PasswordRequired];
    } else if |password| < MinPasswordLength {
      errors := errors["password" := PasswordTooShort];
    }
    if mode == Signup && Field(form, "name") == "" {
      errors := errors["name" := NameRequired];
    }
  }

  // ---------------------------------------------------------------------------
  // Submit
  // ---------------------------------------------------------------------------

  /** What `signIn('credentials', …)` produced: a result object (possibly carrying `error`) or a thrown error. */
  datatype SignInOutcome = SignedIn(result: Value) | SignInThrew(message: string)

  /** The form after a submit, and the calls it made. */
  datatype Submitted = Submitted(
    errors: map<string, string>,
    loading: bool,
    signupRequest: Option<Form>,
    signInCredentials: Option<(string, string)>,
    navigate: Option<string>)

  /** The message thrown when the signup request is refused. */
  function SignupError(status: nat, body: Result<Value, string>): string {
    match body
    case Failure(m) => m
    case Success(data) =>
      if data.Null? then NullErrorBody else ToText(Or(Prop(data, "error"), Str(SignupFailed)))
  }

  /**
   * `handleSubmit`: with any validation error nothing is requested and the
   * errors replace the old ones. Signup posts the form, then signs in; login
   * signs in directly and reports any sign-in error as the fixed
   * "Invalid credentials". A thrown error becomes the `auth` error. Success
   * leaves the errors as they were and opens the dashboard.
   */
  method Submit(form: Form, mode: Mode, previous: map<string, string>,
                signup: Form -> Fetched, signIn: (string, string) -> SignInOutcome)
    returns (r: Submitted)
    ensures !r.loading
    ensures r.errors.Keys <= {"email", "password", "name", "auth"} + previous.Keys
    ensures ValidationErrors(form, mode) != map[] <==> r.signupRequest.None? && r.signInCredentials.None?
    ensures ValidationErrors(form, mode) != map[] ==> r.errors == ValidationErrors(form, mode) && r.navigate.None?
    ensures mode == Login ==> r.signupRequest.None?
    ensures r.signInCredentials.Some? ==> r.signInCredentials.value == (Field(form, "email"), Field(form, "password"))
    ensures r.signupRequest.Some? ==> r.signupRequest.value == form && mode == Signup
    ensures r.navigate.Some? ==> r.navigate.value == DashboardPath && r.errors == previous
    ensures mode == Login && r.signInCredentials.Some? ==>
              var outcome := signIn(Field(form, "email"), Field(form, "password"));
              && (outcome.SignedIn? && Present(Prop(outcome.result, "error")) ==>
                    r.errors == map["auth" := InvalidCredentials] && r.navigate.None?)
              && (outcome.SignedIn? && !Present(Prop(outcome.result, "error")) ==>
                    r.navigate == Some(DashboardPath))
              && (outcome.SignInThrew? ==> r.errors == map["auth" := outcome.message] && r.navigate.None?)
    ensures mode == Signup && ValidationErrors(form, mode) == map[] ==> r.signupRequest == Some(form)
    ensures mode == Signup && r.signupRequest.Some? ==>
              var reply := signup(form);
              && (reply.Threw? ==>
                    r.errors == map["auth" := reply.message] && r.signInCredentials.None? && r.navigate.None?)
              && (reply.Replied? && !Ok(reply.status) ==>
                    && r.errors == map["auth" := SignupError(reply.status, reply.body)]
                    && r.signInCredentials.None? && r.navigate.None?)
              && (reply.Replied? && Ok(reply.status) ==> r.signInCredentials.Some?)
    ensures mode == Signup && r.signInCredentials.Some? ==>
              var outcome := signIn(Field(form, "email"), Field(form, "password"));
              && signup(form).Replied? && Ok(signup(form).status)
              && (outcome.SignedIn? && Present(Prop(outcome.result, "error")) ==>
                    r.errors == map["auth" := ToText(Prop(outcome.result, "error").value)] && r.navigate.None?)
              && (outcome.SignedIn? && !Present(Prop(outcome.result, "error")) ==>
                    r.navigate == Some(DashboardPath))
              && (outcome.SignInThrew? ==> r.errors == map["auth" := outcome.message] && r.navigate.None?)
  {
    var errors := Validate(form, mode);
    if |errors| > 0 {
      return Submitted(errors, false, None, None, None);
    }
    var credentials := (Field(form, "email"), Field(form, "password"));
    match mode {
      case Signup =>
        var reply := signup(form);
        match reply {
          case Threw(m) =>
            return Submitted(map["auth" := m], false, Some(form), None, None);
          case Replied(status, body) =>
            if !Ok(status) {
              return Submitted(map["auth" := SignupError(status, body)], false, Some(form), None, None);
            }
        }
        var outcome := signIn(credentials.0, credentials.1);
        match outcome {
          case SignInThrew(m) =>
            return Submitted(map["auth" := m], false, Some(form), Some(credentials), None);
          case SignedIn(result) =>
            if Present(Prop(result, "error")) {
              var m := ToText(Prop(result, "error").value);
              return Submitted(map["auth" := m], false, Some(form), Some(credentials), None);
            }
        }
        return Submitted(previous, false, Some(form), Some(credentials), Some(DashboardPath));
      case Login =>
        var outcome := signIn(credentials.0, credentials.1);
        match outcome {
          case SignInThrew(m) =>
            return Submitted(map["auth" := m], false, None, Some(credentials), None);
          case SignedIn(result) =>
            if Present(Prop(result, "error")) {
              return Submitted(map["auth" := InvalidCredentials], false, None, Some(credentials), None);
            }
        }
        return Submitted(previous, false, None, Some(credentials), Some(DashboardPath));
    }
  }

  // ---------------------------------------------------------------------------
  // Editing a field
  // ---------------------------------------------------------------------------

  /** `handleChange`: the field takes the new value; its error, if set, is blanked; nothing else changes. */
  function Change(form: Form, errors: map<string, string>, name: string, value: string): (r: (Form, map<string, string>))
    ensures r.0 == form[name := value]
    ensures r.1.Keys == errors.Keys
    ensures name in errors ==> r.1[name] == ""
    ensures forall other :: other in errors && other != name ==> r.1[other] == errors[other]
  {
    var newErrors := if name in errors && errors[name] != "" then errors[name := ""] else errors;
    (form[name := value], newErrors)
  }
}

=== FILE: catalog.dfy ===
/**
 * The school catalog endpoint (`GET` and `POST /api/schools`): configuration
 * of the table handle, query construction (search and filter formulas, fixed
 * record cap and view), normalisation of the catalog's records to the fixed
 * application keys, and the mapping of upstream errors to status codes.
 *
 * The catalog service itself is a function from a table handle and query
 * options to either records or an upstream error.
 */
module Catalog {
  import opened Wrappers
  import opened Text
  import opened Json

  const MaxRecords := 100
  const GridView := "Grid view"
  const CostPlaceholder := "Contact for pricing"
  const ConfigMissing := "Airtable configuration is missing or invalid"

  /** The catalog's column names and the application keys they are published under, in mapping order. */
  const FieldMappings: seq<(string, string)> := [
    ("Name", "name"), ("Pathway", "pathway"), ("Industries", "industries"),
    ("Program Length", "programLength"), ("Cost", "cost"), ("Housing", "housing"),
    ("Website", "website"), ("Location", "location")]

  const AppKeys: set<string> := {"name", "pathway", "industries", "programLength", "cost", "housing", "website", "location"}

  /** A catalog row: its opaque identifier and its fields by column name. */
  datatype CatalogRecord = CatalogRecord(id: string, fields: map<string, Value>)

  // ---------------------------------------------------------------------------
  // Record normalisation
  // ---------------------------------------------------------------------------

  /** `record.fields[column] || ''` */
  function FieldOrEmpty(fields: map<string, Value>, column: string): Value {
    Or(Get(fields, column), Str(""))
  }

  /** `result[appField] = record.fields[column] || ''` for each mapping from index i on. */
  function ApplyMappings(fields: map<string, Value>, i: nat, result: map<string, Value>): map<string, Value>
    requires i <= |FieldMappings|
    decreases |FieldMappings| - i
  {
    if i == |FieldMappings| then result
    else ApplyMappings(fields, i + 1, result[FieldMappings[i].1 := FieldOrEmpty(fields, FieldMappings[i].0)])
  }

  /** The mapping loop, written out: eight assignments in mapping order. */
  lemma MappingsUnrolled(fields: map<string, Value>, result: map<string, Value>)
    ensures ApplyMappings(fields, 0, result)
         == result["name" := FieldOrEmpty(fields, "Name")]
                  ["pathway" := FieldOrEmpty(fields, "Pathway")]
                  ["industries" := FieldOrEmpty(fields, "Industries")]
                  ["programLength" := FieldOrEmpty(fields, "Program Length")]
                  ["cost" := FieldOrEmpty(fields, "Cost")]
                  ["housing" := FieldOrEmpty(fields, "Housing")]
                  ["website" := FieldOrEmpty(fields, "Website")]
                  ["location" := FieldOrEmpty(fields, "Location")]
  {
    var m := FieldMappings;
    var r1 := result[m[0].1 := FieldOrEmpty(fields, m[0].0)];
    var r2 := r1[m[1].1 := FieldOrEmpty(fields, m[1].0)];
    var r3 := r2[m[2].1 := FieldOrEmpty(fields, m[2].0)];
    var r4 := r3[m[3].1 := FieldOrEmpty(fields, m[3].0)];
    var r5 := r4[m[4].1 := FieldOrEmpty(fields, m[4].0)];
    var r6 := r5[m[5].1 := FieldOrEmpty(fields, m[5].0)];
    var r7 := r6[m[6].1 := FieldOrEmpty(fields, m[6].0)];
    var r8 := r7[m[7].1 := FieldOrEmpty(fields, m[7].0)];
    assert ApplyMappings(fields, 0, result) == ApplyMappings(fields, 1, r1);
    assert ApplyMappings(fields, 1, r1) == ApplyMappings(fields, 2, r2);
    assert ApplyMappings(fields, 2, r2) == ApplyMappings(fields, 3, r3);
    assert ApplyMappings(fields, 3, r3) == ApplyMappings(fields, 4, r4);
    assert ApplyMappings(fields, 4, r4) == ApplyMappings(fields, 5, r5);
    assert ApplyMappings(fields, 5, r5) == ApplyMappings(fields, 6, r6);
    assert ApplyMappings(fields, 6, r6) == ApplyMappings(fields, 7, r7);
    assert ApplyMappings(fields, 7, r7) == ApplyMappings(fields, 8, r8);
  }

  /**
   * One normalised record: `id` plus exactly the eight application keys, each
   * the source value when truthy and `''` otherwise, except that an empty cost
   * becomes the pricing placeholder.
   */
  function TransformRecord(rec: CatalogRecord): (r: map<string, Value>)
    ensures r.Keys == {"id"} + AppKeys
    ensures r["id"] == Str(rec.id)
    ensures r["name"] == FieldOrEmpty(rec.fields, "Name")
    ensures r["pathway"] == FieldOrEmpty(rec.fields, "Pathway")
    ensures r["industries"] == FieldOrEmpty(rec.fields, "Industries")
    ensures r["programLength"] == FieldOrEmpty(rec.fields, "Program Length")
    ensures r["housing"] == FieldOrEmpty(rec.fields, "Housing")
    ensures r["website"] == FieldOrEmpty(rec.fields, "Website")
    ensures r["location"] == FieldOrEmpty(rec.fields, "Location")
    ensures r["cost"] == (if Present(Get(rec.fields, "Cost")) then rec.fields["Cost"] else Str(CostPlaceholder))
    ensures r["cost"] != Str("")
  {
    var mapped := ApplyMappings(rec.fields, 0, map["id" := Str(rec.id)]);
    MappedFields(rec);
    if mapped["cost"] == Str("") then mapped["cost" := Str(CostPlaceholder)] else mapped
  }

  /** After the mapping loop: the id and the eight application keys, each from its column. */
  lemma MappedFields(rec: CatalogRecord)
    ensures var mapped := ApplyMappings(rec.fields, 0, map["id" := Str(rec.id)]);
            && mapped.Keys == {"id"} + AppKeys
            && mapped["id"] == Str(rec.id)
            && mapped["name"] == FieldOrEmpty(rec.fields, "Name")
            && mapped["pathway"] == FieldOrEmpty(rec.fields, "Pathway")
            && mapped["industries"] == FieldOrEmpty(rec.fields, "Industries")
            && mapped["programLength"] == FieldOrEmpty(rec.fields, "Program Length")
            && mapped["cost"] == FieldOrEmpty(rec.fields, "Cost")
            && mapped["housing"] == FieldOrEmpty(rec.fields, "Housing")
            && mapped["website"] == FieldOrEmpty(rec.fields, "Website")
            && mapped["location"] == FieldOrEmpty(rec.fields, "Location")
  {
    MappingsUnrolled(rec.fields, map["id" := Str(rec.id)]);
    MappedKeys(rec.fields, map["id" := Str(rec.id)]);
  }

  /** The mapping loop adds exactly the application keys. */
  lemma MappedKeys(fields: map<string, Value>, start: map<string, Value>)
    ensures ApplyMappings(fields, 0, start).Keys == start.Keys + AppKeys
  {
    MappingsUnrolled(fields, start);
  }

  /** `transformRecords`: every record normalised, in order. */
  function TransformRecords(records: seq<CatalogRecord>): (r: seq<map<string, Value>>)
    ensures |r| == |records|
    ensures forall i :: 0 <= i < |records| ==> r[i] == TransformRecord(records[i])
  {
    seq(|records|, i requires 0 <= i < |records| => TransformRecord(records[i]))
  }

  /** `{ schools }`: the normalised records wrapped in an object. */
  function SchoolsBody(records: seq<CatalogRecord>): (v: Value)
    ensures v.Obj? && v.fields.Keys == {"schools"}
    ensures v.fields["schools"].Arr? && |v.fields["schools"].items| == |records|
    ensures forall i :: 0 <= i < |records| ==> v.fields["schools"].items[i] == Obj(TransformRecord(records[i]))
  {
    var rs := TransformRecords(records);
    Obj(map["schools" := Arr(seq(|rs|, i requires 0 <= i < |rs| => Obj(rs[i])))])
  }

  // ---------------------------------------------------------------------------
  // Upstream errors
  // ---------------------------------------------------------------------------

  /** An error thrown by the catalog client: its `error` code and `message`, either possibly undefined. */
  datatype UpstreamError = UpstreamError(code: Option<Value>, message: Option<Value>)

  /** `{ key: value }` when the value is defined; JSON drops undefined properties. */
  function WithOptional(m: map<string, Value>, key: string, o: Option<Value>): map<string, Value> {
    if o.Some? then m[key := o.value] else m
  }

  /**
   * `handleAirtableError`: `NOT_AUTHORIZED` is 403, `NOT_FOUND` is 404, any
   * other error is 500 with the message (or a default) as details and the
   * code (or `UNKNOWN`) as `errorType`.
   */
  function ErrorResponseFor(e: UpstreamError): (r: Response)
    ensures r.status in {403, 404, 500}
    ensures r.status == 403 <==> e.code == Some(Str("NOT_AUTHORIZED"))
    ensures r.status == 404 <==> e.code == Some(Str("NOT_FOUND"))
    ensures r.status == 500 ==>
              && r.body.Obj?
              && r.body.fields.Keys == {"error", "details", "errorType"}
              && r.body.fields["errorType"] == Or(e.code, Str("UNKNOWN"))
              && r.body.fields["details"] == Or(e.message, Str("Unknown error occurred"))
    ensures r.status != 500 ==> r.body.Obj? && (r.body.fields.Keys - {"message"}) == {"error", "details"}
                                && ("message" in r.body.fields <==> e.message.Some?)
  {
    if e.code == Some(Str("NOT_AUTHORIZED")) then
      Response(403, Obj(WithOptional(map[
        "error" := Str("Airtable authorization failed"),
        "details" := Str("Your API key does not have permission to access this base or table")], "message", e.message)))
    else if e.code == Some(Str("NOT_FOUND")) then
      Response(404, Obj(WithOptional(map[
        "error" := Str("Airtable resource not found"),
        "details" := Str("The specified base or table could not be found")], "message", e.message)))
    else
      Response(500, Obj(map[
        "error" := Str("Airtable operation failed"),
        "details" := Or(e.message, Str("Unknown error occurred")),
        "errorType" := Or(e.code, Str("UNKNOWN"))]))
  }

  // ---------------------------------------------------------------------------
  // Configuration
  // ---------------------------------------------------------------------------

  /** The server environment: each setting under its own name and its `NEXT_PUBLIC_` alias. */
  datatype Env = Env(
    apiKey: Option<string>, publicApiKey: Option<string>,
    baseId: Option<string>, publicBaseId: Option<string>,
    tableName: Option<string>, publicTableName: Option<string>)

  predicate Set(o: Option<string>) {
    o.Some? && o.value != ""
  }

  /** `primary || alias` */
  function Resolve(primary: Option<string>, alias: Option<string>): (r: Option<string>)
    ensures Set(primary) ==> r == primary
    ensures !Set(primary) ==> r == alias
  {
    if Set(primary) then primary else alias
  }

  /** The table name with every double quote removed and surrounding white space trimmed. */
  function CleanTableName(name: string): (r: string)
    ensures TrimmedOf(RemoveAll(name, '"'), r)
    ensures '"' !in r
    ensures |r| > 0 ==> !IsWhitespace(r[0]) && !IsWhitespace(r[|r| - 1])
  {
    var unquoted := RemoveAll(name, '"');
    TrimKeepsOut(unquoted, '"');
    Trim(unquoted)
  }

  lemma TrimKeepsOut(s: string, c: char)
    requires c !in s
    ensures c !in Trim(s)
  {
    var t := TrimStart(s);
    assert forall i :: 0 <= i < |t| ==> t[i] == s[|s| - |t| + i];
    var u := TrimEnd(t);
    assert forall i :: 0 <= i < |u| ==> u[i] == t[i];
  }

  /** A name cleaning leaves alone: no double quote, and no white space at either end. */
  predicate IsClean(name: string) {
    '"' !in name && (|name| > 0 ==> !IsWhitespace(name[0]) && !IsWhitespace(name[|name| - 1]))
  }

  /** Cleaning leaves a name unchanged exactly when it is already clean; so cleaning twice is cleaning once. */
  lemma CleanIdempotent(name: string)
    ensures CleanTableName(name) == name <==> IsClean(name)
    ensures CleanTableName(CleanTableName(name)) == CleanTableName(name)
  {
    if IsClean(name) {
      CleanFixes(name);
    }
    CleanFixes(CleanTableName(name));
  }

  lemma CleanFixes(name: string)
    requires IsClean(name)
    ensures CleanTableName(name) == name
  {
    RemoveAbsent(name, '"');
    var t := TrimStart(name);
    assert t == name;
    assert TrimEnd(name) == name;
  }

  lemma {:induction false} RemoveAbsent(s: string, c: char)
    requires c !in s
    ensures RemoveAll(s, c) == s
  {
    if |s| > 0 {
      RemoveAbsent(s[1..], c);
      assert s == [s[0]] + s[1..];
    }
  }

  /** The table handle the module opens at load time, when the catalog is configured. */
  datatype Table = Table(apiKey: string, baseId: string, name: string)

  /**
   * The handle is opened exactly when key, base and table name all resolve to
   * non-empty strings and the client accepts the cleaned table name; the
   * client throws on an empty one, the error is caught, and the handle stays
   * undefined.
   */
  function OpenTable(env: Env): (t: Option<Table>)
    ensures t.Some? <==> && Set(Resolve(env.apiKey, env.publicApiKey)) && Set(Resolve(env.baseId, env.publicBaseId))
                         && Set(Resolve(env.tableName, env.publicTableName))
                         && CleanTableName(Resolve(env.tableName, env.publicTableName).value) != ""
    ensures t.Some? ==> && t.value.apiKey == Resolve(env.apiKey, env.publicApiKey).value
                        && t.value.baseId == Resolve(env.baseId, env.publicBaseId).value
                        && t.value.name == CleanTableName(Resolve(env.tableName, env.publicTableName).value)
  {
    var key := Resolve(env.apiKey, env.publicApiKey);
    var base := Resolve(env.baseId, env.publicBaseId);
    var name := Resolve(env.tableName, env.publicTableName);
    if Set(key) && Set(base) && Set(name) && CleanTableName(name.value) != "" then
      Some(Table(key.value, base.value, CleanTableName(name.value)))
    else None
  }

  /** A table name of nothing but quotes cleans to the empty name: both routes then report missing configuration. */
  lemma QuotedEmptyNameUnconfigured(env: Env, search: Option<string>, request: SchoolsRequest,
                                    fetch: (Table, QueryOptions) -> FetchResult)
    requires Set(Resolve(env.apiKey, env.publicApiKey)) && Set(Resolve(env.baseId, env.publicBaseId))
    requires env.tableName == Some("\"\"")
    ensures OpenTable(env).None?
    ensures GetSchools(OpenTable(env), search, fetch) == RouteOutcome(None, Response(500, ErrorBody(ConfigMissing)))
    ensures PostSchools(OpenTable(env), request, fetch) == RouteOutcome(None, Response(500, ErrorBody(ConfigMissing)))
  {
    var q := "\"\"";
    assert q == [q[0]] + [q[1]];
    RemoveAllConcat([q[0]], [q[1]], '"');
    RemoveAllOne(q[0], '"');
    RemoveAllOne(q[1], '"');
    assert RemoveAll(q, '"') == "";
  }

  // ---------------------------------------------------------------------------
  // Queries
  // ---------------------------------------------------------------------------

  /** The options of a `select`; the formula is absent when the route sets none. */
  datatype QueryOptions = QueryOptions(maxRecords: nat, view: string, filterByFormula: Option<string>)

  /** What the catalog returns for a query. */
  datatype FetchResult = Records(records: seq<CatalogRecord>) | Failed(error: UpstreamError)

  /** The options a route sends: the fixed cap and view, and the formula only when non-empty. */
  function Options(formula: string): (q: QueryOptions)
    ensures q.maxRecords == MaxRecords && q.view == GridView
    ensures q.filterByFormula.Some? <==> formula != ""
    ensures q.filterByFormula.Some? ==> q.filterByFormula.value == formula
  {
    QueryOptions(MaxRecords, GridView, if formula != "" then Some(formula) else None)
  }

  /** `SEARCH("value", {Column})` */
  function SearchClause(value: string, column: string): string {
    "SEARCH(\"" + value + "\", {" + column + "})"
  }

  /** The search formula of `GET`: the term looked up in the lower-cased name, description and location. */
  function SearchFormula(term: string): string {
    "OR(\n        SEARCH(\"" + term + "\", LOWER({Name})),\n        SEARCH(\"" + term
    + "\", LOWER({Description})),\n        SEARCH(\"" + term + "\", LOWER({Location}))\n      )"
  }

  /** What a route did: the query it issued, if any, and its response. */
  datatype RouteOutcome = RouteOutcome(query: Option<(Table, QueryOptions)>, response: Response)

  function Answer(table: Table, opts: QueryOptions, fetch: (Table, QueryOptions) -> FetchResult): Response {
    match fetch(table, opts)
    case Records(rs) => Response(200, SchoolsBody(rs))
    case Failed(e) => ErrorResponseFor(e)
  }

  /** `GET /api/schools?search=term` */
  function GetSchools(table: Option<Table>, search: Option<string>,
                      fetch: (Table, QueryOptions) -> FetchResult): (o: RouteOutcome)
    ensures table.None? ==> o == RouteOutcome(None, Response(500, ErrorBody(ConfigMissing)))
    ensures table.Some? ==> o.query.Some? && o.query.value.0 == table.value
    ensures o.query.Some? ==>
              var q := o.query.value.1;
              && q.maxRecords == MaxRecords && q.view == GridView
              && (q.filterByFormula.Some? <==> Set(search))
              && (q.filterByFormula.Some? ==> q.filterByFormula.value == SearchFormula(search.value))
    ensures o.query.Some? && fetch(o.query.value.0, o.query.value.1).Records? ==>
              o.response == Response(200, SchoolsBody(fetch(o.query.value.0, o.query.value.1).records))
    ensures o.query.Some? && fetch(o.query.value.0, o.query.value.1).Failed? ==>
              o.response == ErrorResponseFor(fetch(o.query.value.0, o.query.value.1).error)
  {
    match table
    case None => RouteOutcome(None, Response(500, ErrorBody(ConfigMissing)))
    case Some(t) =>
      var opts := Options(if Set(search) then SearchFormula(search.value) else "");
      RouteOutcome(Some((t, opts)), Answer(t, opts, fetch))
  }

  /** The optional cost ceiling; an undefined `max` renders as "undefined". */
  datatype CostRange = CostRange(max: Option<string>)

  /** The explicit filters; an empty string is an unset (falsy) filter. */
  datatype Filters = Filters(location: string, pathway: string, industries: string, costRange: Option<CostRange>)

  /**
   * The body of `POST /api/schools`: reading it threw, or its `answers`
   * (absent or falsy, or the values of its entries in order) and `filters`.
   */
  datatype SchoolsRequest =
    | BodyThrew(message: string)
    | SchoolsRequest(answers: Option<seq<string>>, filters: Option<Filters>)

  /** `OR(SEARCH("v1", {Industries}),SEARCH("v2", {Industries}),...)` */
  function AnswersFormula(values: seq<string>): string {
    "OR(" + Join(seq(|values|, i requires 0 <= i < |values| => SearchClause(values[i], "Industries")), ",") + ")"
  }

  function CostClause(c: CostRange): string {
    "{Cost} <= \"" + c.max.GetOr("undefined") + "\""
  }

  /** The clauses for the set filters, in the order location, pathway, industries, cost. */
  function FilterClauses(f: Filters): (r: seq<string>)
    ensures |r| == (if f.location != "" then 1 else 0) + (if f.pathway != "" then 1 else 0)
                   + (if f.industries != "" then 1 else 0) + (if f.costRange.Some? then 1 else 0)
    ensures f.location != "" ==> r[0] == SearchClause(f.location, "Location")
    ensures f.pathway != "" ==> r[if f.location != "" then 1 else 0] == SearchClause(f.pathway, "Pathway")
    ensures f.industries != "" ==>
              r[(if f.location != "" then 1 else 0) + (if f.pathway != "" then 1 else 0)]
                == SearchClause(f.industries, "Industries")
    ensures f.costRange.Some? ==> r[|r| - 1] == CostClause(f.costRange.value)
  {
    (if f.location != "" then [SearchClause(f.location, "Location")] else [])
    + (if f.pathway != "" then [SearchClause(f.pathway, "Pathway")] else [])
    + (if f.industries != "" then [SearchClause(f.industries, "Industries")] else [])
    + (if f.costRange.Some? then [CostClause(f.costRange.value)] else [])
  }

  /** `AND(c1,c2,...)`, or no formula when no filter is set. */
  function FiltersFormula(f: Filters): (r: string)
    ensures r == "" <==> |FilterClauses(f)| == 0
    ensures |FilterClauses(f)| > 0 ==> r == "AND(" + Join(FilterClauses(f), ",") + ")"
  {
    var clauses := FilterClauses(f);
    if |clauses| > 0 then "AND(" + Join(clauses, ",") + ")" else ""
  }

  /** Non-empty answers win; otherwise filters, if given; otherwise no formula. */
  function PostFormula(answers: Option<seq<string>>, filters: Option<Filters>): string {
    if answers.Some? && |answers.value| > 0 then AnswersFormula(answers.value)
    else if filters.Some? then FiltersFormula(filters.value)
    else ""
  }

  /** `POST /api/schools` */
  function PostSchools(table: Option<Table>, request: SchoolsRequest,
                       fetch: (Table, QueryOptions) -> FetchResult): (o: RouteOutcome)
    ensures table.None? ==> o == RouteOutcome(None, Response(500, ErrorBody(ConfigMissing)))
    ensures table.Some? && request.BodyThrew? ==>
              o.query.None? && o.response == ErrorResponseFor(UpstreamError(None, Some(Str(request.message))))
    ensures o.query.Some? ==>
              && table.Some? && request.SchoolsRequest? && o.query.value.0 == table.value
              && o.query.value.1 == Options(PostFormula(request.answers, request.filters))
              && o.query.value.1.maxRecords == MaxRecords && o.query.value.1.view == GridView
    ensures table.Some? && request.SchoolsRequest? ==> o.query.Some?
    ensures o.query.Some? && fetch(o.query.value.0, o.query.value.1).Records? ==>
              o.response == Response(200, SchoolsBody(fetch(o.query.value.0, o.query.value.1).records))
    ensures o.query.Some? && fetch(o.query.value.0, o.query.value.1).Failed? ==>
              o.response == ErrorResponseFor(fetch(o.query.value.0, o.query.value.1).error)
  {
    match table
    case None => RouteOutcome(None, Response(500, ErrorBody(ConfigMissing)))
    case Some(t) =>
      match request
      case BodyThrew(m) => RouteOutcome(None, ErrorResponseFor(UpstreamError(None, Some(Str(m)))))
      case SchoolsRequest(answers, filters) =>
        var opts := Options(PostFormula(answers, filters));
        RouteOutcome(Some((t, opts)), Answer(t, opts, fetch))
  }

  /** With non-empty answers the filters play no part in the query. */
  lemma AnswersOverrideFilters(values: seq<string>, f1: Option<Filters>, f2: Option<Filters>)
    requires |values| > 0
    ensures PostFormula(Some(values), f1) == PostFormula(Some(values), f2) == AnswersFormula(values)
  {
  }

  /** The filters formula requires every clause of a set filter. */
  lemma FiltersFormulaHasEach(f: Filters, i: nat)
    requires i < |FilterClauses(f)|
    ensures Contains(FiltersFormula(f), FilterClauses(f)[i])
  {
    var clauses := FilterClauses(f);
    JoinContains(clauses, ",", i);
    OccursInSuffix("AND(", Join(clauses, ","), clauses[i]);
    OccursInPrefix("AND(" + Join(clauses, ","), ")", clauses[i]);
  }

  /** The answers formula searches the Industries column for every answer value. */
  lemma AnswersFormulaSearchesEach(values: seq<string>, i: nat)
    requires i < |values|
    ensures Contains(AnswersFormula(values), SearchClause(values[i], "Industries"))
  {
    var clauses := seq(|values|, j requires 0 <= j < |values| => SearchClause(values[j], "Industries"));
    JoinContains(clauses, ",", i);
    OccursInSuffix("OR(", Join(clauses, ","), clauses[i]);
    OccursInPrefix("OR(" + Join(clauses, ","), ")", clauses[i]);
  }
}

=== FILE: integration.dfy ===
/**
 * How the components meet, each taken at its own boundary: the catalog's
 * normalised records and the scorer's column names, and the results page's
 * request and the analysis route's request check.
 */
module Integration {
  import opened Wrappers
  import opened Json
  import Catalog
  import Analyze
  import Results

  /**
   * A record normalised by the catalog has only lower-case keys, while the
   * scorer reads `Pathway`, `Industries`, `Program Length` and `Location`:
   * every such record scores 0 and gets the default reasoning.
   */
  lemma NormalisedRecordsScoreZero(rec: Catalog.CatalogRecord, prefs: string)
    ensures var school := Obj(Catalog.TransformRecord(rec));
            && Analyze.ScoreSchool(school, prefs).Success?
            && Analyze.ScoreSchool(school, prefs).value.score == 0
            && Analyze.ScoreSchool(school, prefs).value.fields["reasoning"] == Str(Analyze.DefaultReason)
  {
    var props := Catalog.TransformRecord(rec);
    assert "Pathway" !in props && "Industries" !in props && "Program Length" !in props && "Location" !in props;
    Analyze.UntaggedScoresZero(props, prefs);
  }

  /**
   * The results page posts the catalog reply itself, the `{ schools }`
   * wrapper, as `schools`; the analysis route requires an array there and
   * answers 400.
   */
  lemma WrappedSchoolsRejected(stored: string, records: seq<Catalog.CatalogRecord>, apiKey: Option<string>,
                               parse: string -> Result<Value, string>, values: Value -> Result<seq<Value>, string>,
                               ai: (seq<Value>, Value) -> Analyze.AiReply)
    requires stored != ""
    ensures var request := Results.AnalyzeRequest(stored, Catalog.SchoolsBody(records));
            Analyze.Route(Success(request), apiKey, parse, values, ai).response
              == Response(400, ErrorBody(Analyze.SchoolsRequired))
  {
  }

  /** The analysis route as the page's `fetch` sees it. */
  function AnalyzeEndpoint(apiKey: Option<string>, parse: string -> Result<Value, string>,
                           values: Value -> Result<seq<Value>, string>,
                           ai: (seq<Value>, Value) -> Analyze.AiReply): Value -> Fetched
  {
    (request: Value) =>
      var response := Analyze.Route(Success(request), apiKey, parse, values, ai).response;
      Replied(response.status, Success(response.body))
  }

  /**
   * End to end: with stored answers and a successful catalog reply, the
   * results page shows the analysis route's rejection as its error and
   * keeps its previous results.
   */
  lemma ResultsPageShowsRejection(previous: Option<Value>, stored: string, records: seq<Catalog.CatalogRecord>,
                                  apiKey: Option<string>, parse: string -> Result<Value, string>,
                                  values: Value -> Result<seq<Value>, string>,
                                  ai: (seq<Value>, Value) -> Analyze.AiReply)
    requires stored != ""
    ensures var o := Results.AnalyzeResults(previous, Some(stored), Replied(200, Success(Catalog.SchoolsBody(records))),
                                            AnalyzeEndpoint(apiKey, parse, values, ai));
            && o.state.error == Some(Analyze.SchoolsRequired)
            && o.state.results == previous
            && o.analyzeRequest == Some(Results.AnalyzeRequest(stored, Catalog.SchoolsBody(records)))
  {
    var body := Catalog.SchoolsBody(records);
    var request := Results.AnalyzeRequest(stored, body);
    WrappedSchoolsRejected(stored, records, apiKey, parse, values, ai);
    assert AnalyzeEndpoint(apiKey, parse, values, ai)(request) == Replied(400, Success(ErrorBody(Analyze.SchoolsRequired)));
    Results.RefusalShown(previous, stored, 200, body, AnalyzeEndpoint(apiKey, parse, values, ai), Analyze.SchoolsRequired);
  }
}

=== FILE: json.dfy ===
/**
 * The JSON values that flow between the routes and pages, with the JavaScript
 * semantics the code relies on: truthiness, property reads, `||` defaults,
 * `String(v)` and `Array.prototype.join`.
 */
module Json {
  import opened Wrappers
  import opened Text

  /** A JSON value. Numbers are integers; an absent property is `None` where an Option is used. */
  datatype Value =
    | Null
    | Bool(b: bool)
    | Num(n: int)
    | Str(s: string)
    | Arr(items: seq<Value>)
    | Obj(fields: map<string, Value>)

  /** JavaScript truthiness of a defined value. */
  predicate Truthy(v: Value) {
    match v
    case Null => false
    case Bool(b) => b
    case Num(n) => n != 0
    case Str(s) => s != ""
    case Arr(_) => true
    case Obj(_) => true
  }

  /** Truthiness of a value that may be `undefined`. */
  predicate Present(o: Option<Value>) {
    o.Some? && Truthy(o.value)
  }

  function Get(fields: map<string, Value>, key: string): (r: Option<Value>)
    ensures r.Some? <==> key in fields
    ensures r.Some? ==> r.value == fields[key]
  {
    if key in fields then Some(fields[key]) else None
  }

  /** `v[key]` where the read cannot throw: only objects carry named properties here. */
  function Prop(v: Value, key: string): (r: Option<Value>)
    ensures r.Some? ==> v.Obj? && key in v.fields && r.value == v.fields[key]
    ensures v.Obj? && key in v.fields ==> r.Some?
  {
    if v.Obj? then Get(v.fields, key) else None
  }

  /** A property that holds a string. */
  function StrProp(v: Value, key: string): (r: Option<string>)
    ensures r.Some? <==> Prop(v, key).Some? && Prop(v, key).value.Str?
    ensures r.Some? ==> Prop(v, key).value == Str(r.value)
  {
    match Prop(v, key)
    case Some(Str(s)) => Some(s)
    case _ => None
  }

  /** `o || fallback` */
  function Or(o: Option<Value>, fallback: Value): (r: Value)
    ensures Present(o) ==> r == o.value
    ensures !Present(o) ==> r == fallback
  {
    if Present(o) then o.value else fallback
  }

  /** `String(v)`, which is also what a template substitution `${v}` produces. */
  function ToText(v: Value): string
    decreases v, 1
  {
    match v
    case Null => "null"
    case Bool(b) => if b then "true" else "false"
    case Num(n) => IntToString(n)
    case Str(s) => s
    case Arr(items) => JoinValues(items, ",")
    case Obj(_) => "[object Object]"
  }

  /** `items.join(sep)`: `null` elements render as the empty string. */
  function JoinValues(items: seq<Value>, sep: string): (r: string)
    ensures |items| == 0 ==> r == ""
    ensures |items| == 1 && items[0].Str? ==> r == items[0].s
    decreases items, 0
  {
    if |items| == 0 then ""
    else
      var head := if items[0].Null? then "" else ToText(items[0]);
      if |items| == 1 then head
      else
        head + sep + JoinValues(items[1..], sep)
  }

  /** What a client-side `fetch` produced: a reply with its status and parsed body, or a thrown error. */
  datatype Fetched = Replied(status: nat, body: Result<Value, string>) | Threw(message: string)

  /** `response.ok` */
  predicate Ok(status: nat) {
    200 <= status <= 299
  }

  /** A JSON reply: `NextResponse.json(body, { status })`. */
  datatype Response = Response(status: nat, body: Value)

  /** The `{ error: message }` body every route uses for its failures. */
  function ErrorBody(message: string): (v: Value)
    ensures v.Obj? && Prop(v, "error") == Some(Str(message))
  {
    Obj(map["error" := Str(message)])
  }

  /** An `Obj` whose only keys are the given ones: the shape a response promises. */
  predicate HasExactKeys(v: Value, keys: set<string>) {
    v.Obj? && v.fields.Keys == keys
  }
}

=== FILE: login.dfy ===
/**
 * The login endpoint: checks the posted e-mail and password against the user
 * table, issues a session token for the user's id and returns the user
 * without its password. Password comparison and token signing are parameters;
 * setting the cookie is reported as the token it would carry.
 */
module Login {
  import opened Wrappers
  import opened Json
  import opened UserStore

  const FieldsRequired := "Email and password are required"
  const InvalidCredentials := "Invalid credentials"
  const LoginFailed := "Login failed"

  /** The reply and the token placed in the cookie, if any. */
  datatype LoginOutcome = LoginOutcome(response: Response, cookie: Option<string>)

  /** The user row without its password. */
  function PublicUser(u: User): (v: Value)
    ensures v.Obj? && v.fields.Keys == {"id", "email", "name"}
    ensures v.fields["id"] == Num(u.id) && v.fields["email"] == Str(u.email) && v.fields["name"] == Str(u.name)
  {
    Obj(map["id" := Num(u.id), "email" := Str(u.email), "name" := Str(u.name)])
  }

  /** The body carries `key` as a non-empty string. */
  predicate Given(body: Value, key: string) {
    StrProp(body, key).Some? && StrProp(body, key).value != ""
  }

  function Failed(status: nat, message: string): LoginOutcome {
    LoginOutcome(Response(status, ErrorBody(message)), None)
  }

  /**
   * `POST /api/auth/login`. A body that cannot be read, an address the
   * table cannot be queried with, or a password the comparison cannot take
   * all end in 500.
   */
  function Post(body: Result<Value, string>, users: Store,
                verify: (string, string) -> bool, createToken: nat -> string): (o: LoginOutcome)
    ensures body.Failure? || body == Success(Null) ==> o == Failed(500, LoginFailed)
    ensures body.Success? && body.value != Null ==>
              (o.response.status == 400 <==> !Present(Prop(body.value, "email")) || !Present(Prop(body.value, "password")))
    ensures o.response.status == 400 ==> o == Failed(400, FieldsRequired)
    ensures o.response.status == 401 ==> o == Failed(401, InvalidCredentials)
    ensures o.cookie.Some? <==> o.response.status == 200
    ensures o.response.status in {200, 400, 401, 500}
    ensures o.response.status == 200 ==>
              && body.Success? && StrProp(body.value, "email").Some? && StrProp(body.value, "password").Some?
              && var u := FindByEmail(users, StrProp(body.value, "email").value);
                 && u.Some?
                 && verify(StrProp(body.value, "password").value, u.value.password)
                 && o.cookie == Some(createToken(u.value.id))
                 && o.response.body == Obj(map["user" := PublicUser(u.value)])
    ensures body.Success? && Given(body.value, "email") && Present(Prop(body.value, "password"))
            && FindByEmail(users, StrProp(body.value, "email").value).None? ==>
              o == Failed(401, InvalidCredentials)
    ensures body.Success? && Given(body.value, "email") && Given(body.value, "password")
            && FindByEmail(users, StrProp(body.value, "email").value).Some? ==>
              var u := FindByEmail(users, StrProp(body.value, "email").value).value;
              && (verify(StrProp(body.value, "password").value, u.password) ==>
                    o == LoginOutcome(Response(200, Obj(map["user" := PublicUser(u)])), Some(createToken(u.id))))
              && (!verify(StrProp(body.value, "password").value, u.password) ==> o == Failed(401, InvalidCredentials))
  {
    match body
    case Failure(_) => Failed(500, LoginFailed)
    case Success(b) =>
      if b.Null? then Failed(500, LoginFailed)
      else
      var email := Prop(b, "email");
      var password := Prop(b, "password");
      if !Present(email) || !Present(password) then Failed(400, FieldsRequired)
      else if !email.value.Str? then Failed(500, LoginFailed)
      else match FindByEmail(users, email.value.s)
        case None => Failed(401, InvalidCredentials)
        case Some(u) =>
          if !password.value.Str? then Failed(500, LoginFailed)
          else if !verify(password.value.s, u.password) then Failed(401, InvalidCredentials)
          else LoginOutcome(Response(200, Obj(map["user" := PublicUser(u)])), Some(createToken(u.id)))
  }

  /** The posted pair as a body. */
  function Credentials(email: string, password: string): Value {
    Obj(map["email" := Str(email), "password" := Str(password)])
  }

  /** Whether the address is unknown or the password wrong, the reply is the same and no token is issued. */
  lemma UnknownAndWrongPasswordAlike(email: string, password: string, unknownIn: Store, knownIn: Store,
                                     verify: (string, string) -> bool, createToken: nat -> string)
    requires email != "" && password != ""
    requires !Registered(unknownIn, email)
    requires Registered(knownIn, email) && !verify(password, FindByEmail(knownIn, email).value.password)
    ensures Post(Success(Credentials(email, password)), unknownIn, verify, createToken)
         == Post(Success(Credentials(email, password)), knownIn, verify, createToken)
         == Failed(401, InvalidCredentials)
  {
  }

  /**
   * Any user of a valid table logs in with a password that verifies against
   * the stored hash: the reply is that user's public fields and the token is
   * issued for that user's id.
   */
  lemma RegisteredUserLogsIn(users: Store, u: User, password: string,
                             verify: (string, string) -> bool, createToken: nat -> string)
    requires Valid(users) && u in users.users
    requires u.email != "" && password != ""
    requires verify(password, u.password)
    ensures Post(Success(Credentials(u.email, password)), users, verify, createToken)
         == LoginOutcome(Response(200, Obj(map["user" := PublicUser(u)])), Some(createToken(u.id)))
  {
    var i :| 0 <= i < |users.users| && users.users[i] == u;
    assert Registered(users, u.email);
  }
}

=== FILE: quiz.dfy ===
/**
 * The questionnaire page as a state machine: the fixed question table,
 * answer selection, `handleNextQuestion`, `handleStart` and the effect that
 * restores a stored answer as the selection whenever the index or the
 * answers change.
 */
module Quiz {
  import opened Wrappers

  /** A question: its id and the values of its four options (display texts are not modelled). */
  datatype Question = Question(id: nat, options: seq<string>)

  const Questions: seq<Question> := [
    Question(1, ["outdoor", "mechanical", "indoor", "mixed"]),
    Question(2, ["hands_on", "analytical", "social", "creative"]),
    Question(3, ["practical", "structured", "independent", "balanced"]),
    Question(4, ["stability", "financial", "purpose", "growth"]),
    Question(5, ["tech_focused", "balanced_tech", "tech_comfortable", "low_tech"]),
    Question(6, ["short_term", "medium_term", "long_term", "flexible"])
  ]

  const LastIndex: nat := |Questions| - 1
  const ResultsPath := "/results"

  /** The page state: started flag, current index, answers keyed by question id, selected option. */
  datatype QuizState = QuizState(started: bool, index: nat, answers: map<nat, string>, selected: Option<string>)

  /** What a step does outside the page state: nothing, or store the answers and go to the results page. */
  datatype Effect = NoEffect | Finish(stored: map<nat, string>, path: string)

  /** The index always addresses a question. */
  ghost predicate Valid(s: QuizState) {
    s.index <= LastIndex
  }

  const Initial := QuizState(false, 0, map[], None)

  /** The question table: six questions with ids 1..6, four option values each. */
  lemma QuestionTable()
    ensures |Questions| == 6 && LastIndex == 5
    ensures forall i :: 0 <= i < |Questions| ==> Questions[i].id == i + 1 && |Questions[i].options| == 4
  {
  }

  /** Id of the current question. */
  function CurrentId(s: QuizState): (id: nat)
    requires Valid(s)
    ensures 1 <= id <= 6
  {
    Questions[s.index].id
  }

  /** The restore effect: a truthy stored answer for the current question becomes the selection. */
  function Settle(s: QuizState): (r: QuizState)
    requires Valid(s)
    ensures Valid(r)
    ensures r.index == s.index && r.answers == s.answers && r.started == s.started
    ensures CurrentId(s) in s.answers && |s.answers[CurrentId(s)]| > 0 ==> r.selected == Some(s.answers[CurrentId(s)])
    ensures !(CurrentId(s) in s.answers && |s.answers[CurrentId(s)]| > 0) ==> r.selected == s.selected
  {
    var id := CurrentId(s);
    if id in s.answers && |s.answers[id]| > 0 then s.(selected := Some(s.answers[id])) else s
  }

  /** `handleAnswer`: choosing an option only sets the selection. */
  function Select(s: QuizState, value: string): QuizState
  {
    s.(selected := Some(value))
  }

  /** `handleStart`, followed by the restore effect (which finds nothing to restore). */
  function Start(s: QuizState): (r: QuizState)
    ensures r == QuizState(true, 0, map[], None)
    ensures Valid(r)
  {
    Settle(QuizState(true, 0, map[], None))
  }

  /**
   * `handleNextQuestion`, followed by the restore effect. Without a
   * selection nothing happens; otherwise the selection is recorded under the
   * current id and cleared, and the quiz either advances or, on the last
   * question, stores the answers including the last one and leaves for the
   * results page.
   */
  function Next(s: QuizState): (r: (QuizState, Effect))
    requires Valid(s)
    ensures Valid(r.0)
    ensures s.selected.None? ==> r == (s, NoEffect)
    ensures s.selected.Some? ==>
              && r.0.answers == s.answers[CurrentId(s) := s.selected.value]
              && r.0.started == s.started
              && (forall id :: id in s.answers && id != CurrentId(s) ==> id in r.0.answers && r.0.answers[id] == s.answers[id])
    ensures s.selected.Some? ==>
              var id := CurrentId(r.0);
              && (id in r.0.answers && |r.0.answers[id]| > 0 ==> r.0.selected == Some(r.0.answers[id]))
              && (!(id in r.0.answers && |r.0.answers[id]| > 0) ==> r.0.selected.None?)
    ensures s.selected.Some? && s.index < LastIndex ==>
              && r.0.index == s.index + 1
              && r.1 == NoEffect
    ensures s.selected.Some? && s.index == LastIndex ==>
              && r.0.index == s.index
              && r.1 == Finish(s.answers[CurrentId(s) := s.selected.value], ResultsPath)
  {
    match s.selected
    case None => (s, NoEffect)
    case Some(answer) =>
      var recorded := s.answers[CurrentId(s) := answer];
      if s.index < LastIndex then
        (Settle(QuizState(s.started, s.index + 1, recorded, None)), NoEffect)
      else
        (Settle(QuizState(s.started, s.index, recorded, None)), Finish(recorded, ResultsPath))
  }

  /** Choose `value`, then press next. */
  function Step(s: QuizState, value: string): (r: (QuizState, Effect))
    requires Valid(s)
    ensures Valid(r.0)
  {
    Next(Select(s, value))
  }

  /** Play the given choices in order from `s`, collecting the effects. */
  function Play(s: QuizState, values: seq<string>): (r: (QuizState, seq<Effect>))
    requires Valid(s)
    ensures Valid(r.0) && |r.1| == |values|
    decreases |values|
  {
    if |values| == 0 then (s, [])
    else
      var (s1, e) := Step(s, values[0]);
      var (s2, es) := Play(s1, values[1..]);
      (s2, [e] + es)
  }

  /** The answers after the first `k` choices of a run. */
  ghost function Answered(values: seq<string>, k: nat): map<nat, string>
    requires k <= |values|
  {
    if k == 0 then map[] else Answered(values, k - 1)[k := values[k - 1]]
  }

  /** The first `k` choices are stored under exactly the ids 1..k, choice `id - 1` under id `id`. */
  lemma {:induction false} AnsweredContents(values: seq<string>, k: nat)
    requires k <= |values|
    ensures forall id: nat :: id in Answered(values, k) <==> 1 <= id <= k
    ensures forall id: nat :: 1 <= id <= k ==> Answered(values, k)[id] == values[id - 1]
  {
    if k > 0 {
      AnsweredContents(values, k - 1);
    }
  }

  /** From the state after `k` choices, the remaining choices finish the run with exactly one answer per id. */
  lemma {:induction false} PlayFrom(values: seq<string>, k: nat)
    requires |values| == 6 && k <= LastIndex
    ensures var r := Play(QuizState(true, k, Answered(values, k), None), values[k..]);
            && |r.1| == 6 - k
            && (forall j :: 0 <= j < 5 - k ==> r.1[j] == NoEffect)
            && r.1[5 - k] == Finish(Answered(values, 6), ResultsPath)
    decreases 6 - k
  {
    var s := QuizState(true, k, Answered(values, k), None);
    var rest := values[k..];
    assert rest[0] == values[k] && rest[1..] == values[k + 1..];
    var sel := Select(s, values[k]);
    assert CurrentId(sel) == k + 1 by { QuestionTable(); }
    var (s1, e) := Step(s, values[k]);
    if k < LastIndex {
      assert s1.answers == Answered(values, k + 1);
      assert s1.index == k + 1;
      assert CurrentId(s1) == k + 2 by { QuestionTable(); }
      AnsweredContents(values, k + 1);
      assert s1 == QuizState(true, k + 1, Answered(values, k + 1), None);
      PlayFrom(values, k + 1);
    } else {
      assert e == Finish(Answered(values, 6), ResultsPath);
      assert values[k + 1..] == [];
    }
  }

  /** Start, then six choices: five silent steps and one final store of exactly the ids 1..6. */
  lemma RunStoresOneAnswerPerQuestion(s: QuizState, values: seq<string>)
    requires |values| == 6
    ensures var r := Play(Start(s), values);
            && |r.1| == 6
            && (forall j :: 0 <= j < 5 ==> r.1[j] == NoEffect)
            && r.1[5].Finish?
            && r.1[5].path == ResultsPath
            && r.1[5].stored.Keys == {1, 2, 3, 4, 5, 6}
            && (forall id :: 1 <= id <= 6 ==> r.1[5].stored[id] == values[id - 1])
  {
    assert Answered(values, 0) == map[];
    assert values[0..] == values;
    PlayFrom(values, 0);
    AnsweredContents(values, 6);
    var m := Answered(values, 6);
    assert m.Keys == {1, 2, 3, 4, 5, 6};
  }

  /** Coming back to an answered question (the index moved or the answers changed) restores its answer. */
  lemma RevisitRestores(s: QuizState, index: nat)
    requires Valid(s) && index <= LastIndex
    requires Questions[index].id in s.answers && s.answers[Questions[index].id] != ""
    ensures Settle(s.(index := index)).selected == Some(s.answers[Questions[index].id])
  {
  }
}

=== FILE: results.dfy ===
/**
 * The results page: the case-tolerant property lookup and array
 * normalisation used to render a match, the `analyzeResults` request and
 * validation chain, the choice among the four views, and retaking the quiz.
 * The two HTTP calls are parameters.
 */
module Results {
  import opened Wrappers
  import opened Text
  import opened Json

  const NoAnswers := "No quiz answers found. Please take the quiz first."
  const SchoolsFetchPrefix := "Failed to fetch schools data: "
  const AnalysisFailedPrefix := "Analysis failed: "
  const InvalidFormat := "Invalid response format from analysis API"
  const NoMatches := "No school matches found in response"
  const GenericFailure := "Failed to analyze quiz results. Please try again."
  const Unnamed := "Unnamed School"
  const QuestionnairePath := "/questionnaire"
  /** The engine's message for reading `error` off a `null` error body. */
  const NullErrorBody := "Cannot read properties of null (reading 'error')"
  /** The engine's message for counting the schools of a `null` schools reply. */
  const NullSchoolsBody := "Cannot read properties of null (reading 'length')"
  /** The engine's message for logging the `analysis` of a `null` analysis reply. */
  const NullAnalysisBody := "Cannot read properties of null (reading 'analysis')"

  // ---------------------------------------------------------------------------
  // Rendering helpers
  // ---------------------------------------------------------------------------

  /** The keys `getSchoolProperty` tries, in order. */
  function Candidates(name: string): seq<string> {
    [name, Capitalize(name), Lower(name)]
  }

  /** Reference: the first key whose value is truthy, if any. */
  function FirstTruthy(fields: map<string, Value>, keys: seq<string>): (r: Option<Value>)
    ensures r.Some? ==> Truthy(r.value)
    ensures r.None? <==> forall i :: 0 <= i < |keys| ==> !Present(Get(fields, keys[i]))
  {
    if |keys| == 0 then None
    else if Present(Get(fields, keys[0])) then Get(fields, keys[0])
    else FirstTruthy(fields, keys[1..])
  }

  lemma FirstOfThree(fields: map<string, Value>, a: string, b: string, c: string)
    ensures FirstTruthy(fields, [a, b, c]) ==
              if Present(Get(fields, a)) then Get(fields, a)
              else if Present(Get(fields, b)) then Get(fields, b)
              else if Present(Get(fields, c)) then Get(fields, c)
              else None
  {
    var keys := [a, b, c];
    assert keys[1..] == [b, c] && keys[1..][1..] == [c] && keys[1..][1..][1..] == [];
    assert FirstTruthy(fields, [c]) == if Present(Get(fields, c)) then Get(fields, c) else FirstTruthy(fields, []);
    assert FirstTruthy(fields, [b, c]) == if Present(Get(fields, b)) then Get(fields, b) else FirstTruthy(fields, [c]);
  }

  /**
   * `getSchoolProperty(school, name)`: `null` (None) for anything that is not
   * an object; otherwise the exact key, the capitalised key and the
   * lower-cased key are tried in turn and the first truthy value wins.
   */
  function GetSchoolProperty(school: Value, name: string): (r: Option<Value>)
    ensures !school.Obj? ==> r.None?
    ensures r.Some? ==> Truthy(r.value)
    ensures school.Obj? ==> r == FirstTruthy(school.fields, Candidates(name))
    ensures school.Obj? && Present(Get(school.fields, name)) ==> r == Some(school.fields[name])
  {
    FirstOfThree(if school.Obj? then school.fields else map[], name, Capitalize(name), Lower(name));
    if !school.Obj? then None
    else if Present(Prop(school, name)) then Prop(school, name)
    else if Present(Prop(school, Capitalize(name))) then Prop(school, Capitalize(name))
    else if Present(Prop(school, Lower(name))) then Prop(school, Lower(name))
    else None
  }

  /** The lookup finds something exactly when one of the three spellings holds a truthy value. */
  lemma LookupFindsAnySpelling(school: Value, name: string)
    requires school.Obj?
    ensures GetSchoolProperty(school, name).Some? <==>
              (Present(Get(school.fields, name)) || Present(Get(school.fields, Capitalize(name)))
               || Present(Get(school.fields, Lower(name))))
  {
    var keys := Candidates(name);
    assert keys[0] == name && keys[1] == Capitalize(name) && keys[2] == Lower(name);
  }

  /**
   * `renderArray(items)`: a falsy value renders nothing, an array renders one
   * badge per element, anything else renders as a single badge.
   */
  function RenderArray(items: Option<Value>): (r: seq<Value>)
    ensures !Present(items) ==> r == []
    ensures Present(items) && items.value.Arr? ==> r == items.value.items
    ensures Present(items) && !items.value.Arr? ==> r == [items.value]
  {
    if !Present(items) then []
    else if items.value.Arr? then items.value.items
    else [items.value]
  }

  /** The heading of a match card: its `name` or `Name`, else the placeholder. */
  function DisplayName(school: Value): (r: Value)
    ensures !(school.Obj? && (Present(Get(school.fields, "name")) || Present(Get(school.fields, "Name")))) ==>
              r == Str(Unnamed)
    ensures school.Obj? && Present(Get(school.fields, "name")) ==> r == school.fields["name"]
    ensures school.Obj? && !Present(Get(school.fields, "name")) && Present(Get(school.fields, "Name")) ==>
              r == school.fields["Name"]
  {
    assert Capitalize("name") == "Name" && Lower("name") == "name";
    assert Capitalize("Name") == "Name" && Lower("Name") == "name";
    var first := GetSchoolProperty(school, "name");
    if first.Some? then first.value
    else
      var second := GetSchoolProperty(school, "Name");
      if second.Some? then second.value else Str(Unnamed)
  }

  /** How a truthy cost is displayed: an array joined by ", ", anything else as is. */
  function Shown(cost: Value): (r: Option<Value>)
    ensures cost.Arr? ==> r == Some(Str(JoinValues(cost.items, ", ")))
    ensures !cost.Arr? ==> r == Some(cost)
  {
    if cost.Arr? then Some(Str(JoinValues(cost.items, ", "))) else Some(cost)
  }

  /** The cost line: hidden when no cost is truthy, an array shown joined by ", ". */
  function CostShown(school: Value): (r: Option<Value>)
    ensures r.Some? ==> !r.value.Arr?
    ensures r.None? <==>
              !(school.Obj? && (Present(Get(school.fields, "cost")) || Present(Get(school.fields, "Cost"))))
    ensures school.Obj? && Present(Get(school.fields, "cost")) ==> r == Shown(school.fields["cost"])
    ensures school.Obj? && !Present(Get(school.fields, "cost")) && Present(Get(school.fields, "Cost")) ==>
              r == Shown(school.fields["Cost"])
  {
    assert Capitalize("cost") == "Cost" && Lower("cost") == "cost";
    assert Capitalize("Cost") == "Cost" && Lower("Cost") == "cost";
    var first := GetSchoolProperty(school, "cost");
    var cost := if first.Some? then first else GetSchoolProperty(school, "Cost");
    if cost.None? then None else Shown(cost.value)
  }

  /** The strings of an all-string array. */
  function Strings(items: seq<Value>): (r: seq<string>)
    requires forall i :: 0 <= i < |items| ==> items[i].Str?
    ensures |r| == |items| && forall i :: 0 <= i < |items| ==> r[i] == items[i].s
  {
    seq(|items|, i requires 0 <= i < |items| => items[i].s)
  }

  /** Joining an array of strings as values is joining the strings. */
  lemma {:induction false} JoinValuesOfStrings(items: seq<Value>, sep: string)
    requires forall i :: 0 <= i < |items| ==> items[i].Str?
    ensures JoinValues(items, sep) == Join(Strings(items), sep)
    decreases |items|
  {
    if |items| > 1 {
      JoinValuesOfStrings(items[1..], sep);
      assert Strings(items)[1..] == Strings(items[1..]);
    }
  }

  /** An object whose `cost` is a list of strings shows them joined by ", ". */
  lemma CostListShownJoined(fields: map<string, Value>)
    requires "cost" in fields && fields["cost"].Arr?
    requires forall i :: 0 <= i < |fields["cost"].items| ==> fields["cost"].items[i].Str?
    ensures CostShown(Obj(fields)) == Some(Str(Join(Strings(fields["cost"].items), ", ")))
  {
    JoinValuesOfStrings(fields["cost"].items, ", ");
  }

  // ---------------------------------------------------------------------------
  // analyzeResults
  // ---------------------------------------------------------------------------

  /** The body posted to the analysis route: the stored answers string and the schools reply as is. */
  function AnalyzeRequest(stored: string, schoolsData: Value): (v: Value)
    ensures v.Obj? && v.fields.Keys == {"answers", "schools"}
    ensures v.fields["answers"] == Str(stored) && v.fields["schools"] == schoolsData
  {
    Obj(map["answers" := Str(stored), "schools" := schoolsData])
  }

  /** Reference: an analysis body the page accepts. */
  predicate Acceptable(data: Value) {
    && Truthy(data)
    && (data.Obj? || data.Arr?)
    && !Present(Prop(data, "error"))
    && Present(Prop(data, "matches"))
    && Prop(data, "matches").value.Arr?
  }

  /**
   * The validation of an ok analysis reply: the accepted body, or the message
   * thrown. A `null` reply throws while it is logged, before the checks.
   */
  function Validate(data: Value): (r: Result<Value, string>)
    ensures r.Success? <==> Acceptable(data)
    ensures r.Success? ==> r.value == data
    ensures data.Null? ==> r == Failure(NullAnalysisBody)
    ensures !data.Null? && !(Truthy(data) && (data.Obj? || data.Arr?)) ==> r == Failure(InvalidFormat)
    ensures Truthy(data) && (data.Obj? || data.Arr?) && Present(Prop(data, "error")) ==>
              r == Failure(ToText(Prop(data, "error").value))
    ensures Truthy(data) && (data.Obj? || data.Arr?) && !Present(Prop(data, "error")) && !Acceptable(data) ==>
              r == Failure(NoMatches)
  {
    if data.Null? then Failure(NullAnalysisBody)
    else if !Truthy(data) || !(data.Obj? || data.Arr?) then Failure(InvalidFormat)
    else if Present(Prop(data, "error")) then Failure(ToText(Prop(data, "error").value))
    else if !Present(Prop(data, "matches")) || !Prop(data, "matches").value.Arr? then Failure(NoMatches)
    else Success(data)
  }

  /** The message thrown for a non-ok analysis reply. */
  function AnalysisError(status: nat, body: Result<Value, string>): string {
    match body
    case Failure(m) => m
    case Success(errorData) =>
      if errorData.Null? then NullErrorBody
      else ToText(Or(Prop(errorData, "error"), Str(AnalysisFailedPrefix + NatToString(status))))
  }

  /** A non-ok reply carrying a non-empty `error` message is reported with exactly that message. */
  lemma AnalysisErrorShowsMessage(status: nat, message: string)
    requires message != ""
    ensures AnalysisError(status, Success(ErrorBody(message))) == message
  {
    assert Prop(ErrorBody(message), "error") == Some(Str(message));
  }

  /** The try block: its result, whether the schools were requested, and the analysis request made. */
  datatype Attempt = Attempt(result: Result<Value, string>, fetchedSchools: bool, analyzeRequest: Option<Value>)

  function Try(stored: Option<string>, schools: Fetched, analyze: Value -> Fetched): (a: Attempt)
    ensures (stored.None? || stored.value == "") ==> a == Attempt(Failure(NoAnswers), false, None)
    ensures stored.Some? && stored.value != "" && schools.Replied? && Ok(schools.status) && schools.body == Success(Null) ==>
              a == Attempt(Failure(NullSchoolsBody), true, None)
    ensures a.analyzeRequest.Some? ==>
              && stored.Some? && schools.Replied? && Ok(schools.status) && schools.body.Success?
              && !schools.body.value.Null?
              && a.analyzeRequest.value == AnalyzeRequest(stored.value, schools.body.value)
    ensures a.result.Success? <==>
              && stored.Some? && stored.value != ""
              && schools.Replied? && Ok(schools.status) && schools.body.Success? && !schools.body.value.Null?
              && var reply := analyze(AnalyzeRequest(stored.value, schools.body.value));
                 reply.Replied? && Ok(reply.status) && reply.body.Success? && Acceptable(reply.body.value)
    ensures a.result.Success? ==>
              && a.analyzeRequest.Some?
              && var reply := analyze(a.analyzeRequest.value);
                 reply.Replied? && reply.body.Success? && a.result.value == reply.body.value
  {
    if stored.None? || stored.value == "" then Attempt(Failure(NoAnswers), false, None)
    else match schools
      case Threw(m) => Attempt(Failure(m), true, None)
      case Replied(status, body) =>
        if !Ok(status) then Attempt(Failure(SchoolsFetchPrefix + NatToString(status)), true, None)
        else match body
          case Failure(m) => Attempt(Failure(m), true, None)
          case Success(schoolsData) =>
            if schoolsData.Null? then Attempt(Failure(NullSchoolsBody), true, None)
            else
              var request := AnalyzeRequest(stored.value, schoolsData);
              var reply := analyze(request);
              var result := match reply
                case Threw(m) => Failure(m)
                case Replied(s, b) =>
                  if !Ok(s) then Failure(AnalysisError(s, b))
                  else match b
                    case Failure(m) => Failure(m)
                    case Success(data) => Validate(data);
              Attempt(result, true, Some(request))
  }

  /** The page state `analyzeResults` writes. */
  datatype PageState = PageState(loading: bool, error: Option<string>, results: Option<Value>)

  /** Which requests `analyzeResults` made and the state it left. */
  datatype Analyzed = Analyzed(state: PageState, fetchedSchools: bool, analyzeRequest: Option<Value>)

  /**
   * `analyzeResults`: on success the reply is stored unchanged; on any
   * failure the message (or the generic one when it is empty) becomes the
   * error and the previous results stay; loading always ends.
   */
  function AnalyzeResults(previous: Option<Value>, stored: Option<string>, schools: Fetched,
                          analyze: Value -> Fetched): (o: Analyzed)
    ensures !o.state.loading
    ensures (stored.None? || stored.value == "") ==>
              && !o.fetchedSchools && o.analyzeRequest.None?
              && o.state == PageState(false, Some(NoAnswers), previous)
    ensures o.state.error.Some? ==> o.state.error.value != "" && o.state.results == previous
    ensures o.state.error.None? ==>
              && o.analyzeRequest.Some?
              && var reply := analyze(o.analyzeRequest.value);
                 reply.Replied? && reply.body.Success? && Acceptable(reply.body.value)
                 && o.state.results == Some(reply.body.value)
  {
    var a := Try(stored, schools, analyze);
    match a.result
    case Success(data) => Analyzed(PageState(false, None, Some(data)), a.fetchedSchools, a.analyzeRequest)
    case Failure(m) =>
      var message := if m == "" then GenericFailure else m;
      Analyzed(PageState(false, Some(message), previous), a.fetchedSchools, a.analyzeRequest)
  }

  /**
   * When the analysis route refuses the request with a non-empty `error`, the
   * page shows exactly that message and keeps its previous results.
   */
  lemma RefusalShown(previous: Option<Value>, stored: string, status: nat, schoolsData: Value,
                     analyze: Value -> Fetched, message: string)
    requires stored != "" && !schoolsData.Null? && Ok(status)
    requires message != ""
    requires var reply := analyze(AnalyzeRequest(stored, schoolsData));
             reply.Replied? && !Ok(reply.status) && reply.body == Success(ErrorBody(message))
    ensures var o := AnalyzeResults(previous, Some(stored), Replied(status, Success(schoolsData)), analyze);
            && o.state == PageState(false, Some(message), previous)
            && o.analyzeRequest == Some(AnalyzeRequest(stored, schoolsData))
  {
    var reply := analyze(AnalyzeRequest(stored, schoolsData));
    AnalysisErrorShowsMessage(reply.status, message);
  }

  // ---------------------------------------------------------------------------
  // Views
  // ---------------------------------------------------------------------------

  datatype View = LoadingView | ErrorView | EmptyView | MatchesView

  /** `results?.matches?.length` for the results the page can hold (a list or a string of matches). */
  function MatchesLength(results: Option<Value>): Option<nat> {
    if results.None? then None
    else match Prop(results.value, "matches")
      case Some(Arr(items)) => Some(|items|)
      case Some(Str(s)) => Some(|s|)
      case _ => None
  }

  /** The condition under which the page renders `view`. */
  predicate Shows(view: View, loading: bool, error: Option<string>, length: Option<nat>) {
    var hasError := error.Some? && error.value != "";
    var hasLength := length.Some? && length.value != 0;
    match view
    case LoadingView => loading
    case ErrorView => hasError && !loading
    case EmptyView => !loading && !hasError && !hasLength
    case MatchesView => !loading && !hasError && length.Some? && length.value > 0
  }

  /** The one view the page shows. */
  function ViewOf(s: PageState): (v: View)
    ensures Shows(v, s.loading, s.error, MatchesLength(s.results))
    ensures forall w: View :: w != v ==> !Shows(w, s.loading, s.error, MatchesLength(s.results))
  {
    var len := MatchesLength(s.results);
    if s.loading then LoadingView
    else if s.error.Some? && s.error.value != "" then ErrorView
    else if len.Some? && len.value > 0 then MatchesView
    else EmptyView
  }

  /** After a successful analysis the page lists the matches exactly when there is at least one. */
  lemma SuccessShowsMatches(previous: Option<Value>, stored: Option<string>, schools: Fetched, analyze: Value -> Fetched)
    ensures var o := AnalyzeResults(previous, stored, schools, analyze);
            o.state.error.None? ==>
              (ViewOf(o.state) == MatchesView <==> |Prop(o.state.results.value, "matches").value.items| > 0)
    ensures var o := AnalyzeResults(previous, stored, schools, analyze);
            o.state.error.Some? ==> ViewOf(o.state) == ErrorView
  {
  }

  // ---------------------------------------------------------------------------
  // Retaking the quiz
  // ---------------------------------------------------------------------------

  /** `handleRetakeQuiz`: the stored answers are removed and the questionnaire opens. */
  function RetakeQuiz(storage: Option<string>): (r: (Option<string>, string))
    ensures r.0.None? && r.1 == QuestionnairePath
  {
    (None, QuestionnairePath)
  }

  /** Coming back to the results page after retaking reports the missing answers and fetches nothing. */
  lemma RetakeThenAnalyze(storage: Option<string>, previous: Option<Value>, schools: Fetched, analyze: Value -> Fetched)
    ensures var o := AnalyzeResults(previous, RetakeQuiz(storage).0, schools, analyze);
            o.state.error == Some(NoAnswers) && !o.fetchedSchools && o.analyzeRequest.None?
  {
  }
}

=== FILE: saved.dfy ===
/**
 * The saved-result endpoint over an in-memory store: listing a user's saved
 * results newest first and saving a new one for the signed-in user. The
 * session user's id and the current time are inputs.
 */
module SavedResults {
  import opened Wrappers
  import opened Json
  import Sorting
  import UserStore

  const Unauthorized := "Unauthorized"
  const ResultsRequired := "Results data is required"
  const InternalError := "Internal server error"

  /** A saved result: its id, owner, the payload as posted and the save time. */
  datatype SavedResult = SavedResult(id: nat, userId: nat, results: Value, savedAt: nat)

  datatype Store = Store(records: seq<SavedResult>)

  const SavedAtKey: SavedResult -> int := (r: SavedResult) => r.savedAt as int

  /** The records owned by `userId`, in store order. */
  function OwnedBy(records: seq<SavedResult>, userId: nat): (r: seq<SavedResult>)
    ensures forall x :: x in r <==> x in records && x.userId == userId
    ensures |r| <= |records|
  {
    if |records| == 0 then []
    else (if records[0].userId == userId then [records[0]] else []) + OwnedBy(records[1..], userId)
  }

  /** `findMany({ where: { userId }, orderBy: { savedAt: "desc" } })`; ties keep store order. */
  function ListFor(store: Store, userId: nat): (r: seq<SavedResult>)
    ensures forall x :: x in r <==> x in store.records && x.userId == userId
    ensures multiset(r) == multiset(OwnedBy(store.records, userId))
    ensures Sorting.SortedDesc(r, SavedAtKey)
  {
    var owned := OwnedBy(store.records, userId);
    var r := Sorting.SortDesc(owned, SavedAtKey);
    assert forall x :: x in r <==> x in multiset(owned);
    r
  }

  /** The owner summary `{ id, name }`, `null` when the owner row is missing. */
  function OwnerSummary(users: UserStore.Store, userId: nat): (r: Value)
    ensures UserStore.Valid(users) && 1 <= userId <= |users.users| ==>
              r == Obj(map["id" := Num(userId), "name" := Str(users.users[userId - 1].name)])
    ensures UserStore.Valid(users) && !(1 <= userId <= |users.users|) ==> r == Null
  {
    match UserStore.FindById(users, userId)
    case None => Null
    case Some(u) => Obj(map["id" := Num(u.id), "name" := Str(u.name)])
  }

  /** A saved result as returned, with its owner summary included. */
  function Render(rec: SavedResult, users: UserStore.Store): (v: Value)
    ensures v.Obj? && v.fields.Keys == {"id", "userId", "results", "savedAt", "user"}
    ensures v.fields["results"] == rec.results && v.fields["userId"] == Num(rec.userId)
    ensures v.fields["id"] == Num(rec.id) && v.fields["savedAt"] == Num(rec.savedAt)
    ensures UserStore.Valid(users) && 1 <= rec.userId <= |users.users| ==>
              v.fields["user"] == Obj(map["id" := Num(rec.userId), "name" := Str(users.users[rec.userId - 1].name)])
  {
    Obj(map["id" := Num(rec.id), "userId" := Num(rec.userId), "results" := rec.results,
            "savedAt" := Num(rec.savedAt), "user" := OwnerSummary(users, rec.userId)])
  }

  function RenderAll(recs: seq<SavedResult>, users: UserStore.Store): (items: seq<Value>)
    ensures |items| == |recs|
    ensures forall i :: 0 <= i < |recs| ==> items[i] == Render(recs[i], users)
  {
    seq(|recs|, i requires 0 <= i < |recs| => Render(recs[i], users))
  }

  /** `GET /api/quiz/save`: without a session user 401; otherwise the user's results, newest first. */
  function Get(session: Option<nat>, store: Store, users: UserStore.Store): (resp: Response)
    ensures session.None? ==> resp == Response(401, ErrorBody(Unauthorized))
    ensures session.Some? ==>
              && resp.status == 200 && resp.body.Arr?
              && resp.body.items == RenderAll(ListFor(store, session.value), users)
              && forall i :: 0 <= i < |resp.body.items| ==> resp.body.items[i].fields["userId"] == Num(session.value)
  {
    match session
    case None => Response(401, ErrorBody(Unauthorized))
    case Some(userId) => Response(200, Arr(RenderAll(ListFor(store, userId), users)))
  }

  datatype PostOutcome = PostOutcome(response: Response, store: Store)

  /**
   * `POST /api/quiz/save`: without a session user 401; a body that cannot be
   * read, or an owner the table does not hold, 500; a falsy `results` 400;
   * otherwise one record is appended, owned by the session user, holding
   * the payload unchanged and saved at `now`.
   */
  function Post(session: Option<nat>, body: Result<Value, string>, store: Store, users: UserStore.Store,
                now: nat): (o: PostOutcome)
    ensures session.None? ==> o == PostOutcome(Response(401, ErrorBody(Unauthorized)), store)
    ensures o.response.status != 200 ==> o.store == store
    ensures o.response.status in {200, 400, 401, 500}
    ensures session.Some? && body.Success? && body.value != Null ==>
              (o.response.status == 400 <==> !Present(Prop(body.value, "results")))
    ensures session.Some? && (body.Failure? || body == Success(Null)) ==>
              o == PostOutcome(Response(500, ErrorBody(InternalError)), store)
    ensures session.Some? && body.Success? && body.value != Null && Present(Prop(body.value, "results")) ==>
              && (o.response.status == 200 <==> UserStore.FindById(users, session.value).Some?)
              && (o.response.status != 200 ==> o == PostOutcome(Response(500, ErrorBody(InternalError)), store))
    ensures o.response.status == 200 ==>
              && session.Some? && body.Success?
              && Present(Prop(body.value, "results"))
              && var saved := SavedResult(|store.records| + 1, session.value, Prop(body.value, "results").value, now);
                 && o.store.records == store.records + [saved]
                 && o.response.body == Render(saved, users)
  {
    match session
    case None => PostOutcome(Response(401, ErrorBody(Unauthorized)), store)
    case Some(userId) =>
      match body
      case Failure(_) => PostOutcome(Response(500, ErrorBody(InternalError)), store)
      case Success(b) =>
        if b.Null? then PostOutcome(Response(500, ErrorBody(InternalError)), store)
        else
          var results := Prop(b, "results");
          if !Present(results) then PostOutcome(Response(400, ErrorBody(ResultsRequired)), store)
          else if UserStore.FindById(users, userId).None? then PostOutcome(Response(500, ErrorBody(InternalError)), store)
          else
            var saved := SavedResult(|store.records| + 1, userId, results.value, now);
            PostOutcome(Response(200, Render(saved, users)), Store(store.records + [saved]))
  }

  /** A save followed by a listing for the same user returns the saved payload, first when it is the newest. */
  lemma SaveThenList(userId: nat, results: Value, store: Store, users: UserStore.Store, now: nat)
    requires Truthy(results)
    requires UserStore.Valid(users) && 1 <= userId <= |users.users|
    ensures var posted := Post(Some(userId), Success(Obj(map["results" := results])), store, users, now);
            var saved := SavedResult(|store.records| + 1, userId, results, now);
            && posted.response.status == 200
            && saved in ListFor(posted.store, userId)
            && Render(saved, users) in Get(Some(userId), posted.store, users).body.items
    ensures var posted := Post(Some(userId), Success(Obj(map["results" := results])), store, users, now);
            var saved := SavedResult(|store.records| + 1, userId, results, now);
            (forall r :: r in store.records && r.userId == userId ==> r.savedAt < now) ==>
              && ListFor(posted.store, userId)[0] == saved
              && Get(Some(userId), posted.store, users).body.items[0].fields["results"] == results
              && Get(Some(userId), posted.store, users).body.items[0].fields["savedAt"] == Num(now)
              && Get(Some(userId), posted.store, users).body.items[0].fields["user"]
                 == Obj(map["id" := Num(userId), "name" := Str(users.users[userId - 1].name)])
  {
    var posted := Post(Some(userId), Success(Obj(map["results" := results])), store, users, now);
    var saved := SavedResult(|store.records| + 1, userId, results, now);
    assert posted.store.records == store.records + [saved];
    var listed := ListFor(posted.store, userId);
    assert saved in listed;
    var j :| 0 <= j < |listed| && listed[j] == saved;
    var items := Get(Some(userId), posted.store, users).body.items;
    assert items[j] == Render(saved, users);
    if forall r :: r in store.records && r.userId == userId ==> r.savedAt < now {
      var first := listed[0];
      assert SavedAtKey(first) >= SavedAtKey(listed[j]);
      assert first in posted.store.records;
    }
  }
}

=== FILE: signup.dfy ===
/**
 * The signup endpoint: creates a user with a hashed password when the
 * address is not yet registered. Hashing is a parameter.
 */
module Signup {
  import opened Wrappers
  import opened Json
  import opened UserStore
  import Login
  import AuthConfig

  const MissingFields := "Missing required fields"
  const AlreadyRegistered := "Email already registered"
  const RegistrationFailed := "Registration failed"
  const Created := "User created successfully"

  /** The reply and the user table afterwards. */
  datatype SignupOutcome = SignupOutcome(response: Response, users: Store)

  function Refused(status: nat, message: string, users: Store): SignupOutcome {
    SignupOutcome(Response(status, ErrorBody(message)), users)
  }

  /**
   * `POST /api/auth/signup`. Only a 200 changes the table, by appending one
   * user that stores `hash(password)`; the reply names the user by id, name
   * and e-mail only. Values the table or the hash cannot take end in 500.
   */
  function Post(body: Result<Value, string>, users: Store, hash: string -> string): (o: SignupOutcome)
    ensures o.response.status != 200 ==> o.users == users
    ensures o.response.status in {200, 400, 500}
    ensures body.Failure? || body == Success(Null) ==> o == Refused(500, RegistrationFailed, users)
    ensures body.Success? && body.value != Null &&
            (!Present(Prop(body.value, "email")) || !Present(Prop(body.value, "password")) || !Present(Prop(body.value, "name"))) ==>
              o == Refused(400, MissingFields, users)
    ensures body.Success? && StrProp(body.value, "email").Some? && Registered(users, StrProp(body.value, "email").value) ==>
              o.response.status != 200
    ensures body.Success? && Present(Prop(body.value, "password")) && Present(Prop(body.value, "name")) &&
            Login.Given(body.value, "email") && Registered(users, StrProp(body.value, "email").value) ==>
              o == Refused(400, AlreadyRegistered, users)
    ensures body.Success? && Login.Given(body.value, "name") && Login.Given(body.value, "email") &&
            Login.Given(body.value, "password") && !Registered(users, StrProp(body.value, "email").value) ==>
              o.response.status == 200
    ensures o.response.status == 400 ==> o == Refused(400, MissingFields, users) || o == Refused(400, AlreadyRegistered, users)
    ensures Valid(users) ==> Valid(o.users)
    ensures o.response.status == 200 ==>
              && body.Success?
              && StrProp(body.value, "name").Some? && StrProp(body.value, "email").Some?
              && StrProp(body.value, "password").Some?
              && var name := StrProp(body.value, "name").value;
                 var email := StrProp(body.value, "email").value;
                 var password := StrProp(body.value, "password").value;
                 var u := User(|users.users| + 1, name, email, hash(password), None);
                 && !Registered(users, email)
                 && o.users.users == users.users + [u]
                 && o.response.body == Obj(map["user" := Obj(map["id" := Num(u.id), "name" := Str(name), "email" := Str(email)]),
                                               "message" := Str(Created)])
  {
    match body
    case Failure(_) => Refused(500, RegistrationFailed, users)
    case Success(b) =>
      if b.Null? then Refused(500, RegistrationFailed, users)
      else
      var name := Prop(b, "name");
      var email := Prop(b, "email");
      var password := Prop(b, "password");
      if !Present(email) || !Present(password) || !Present(name) then Refused(400, MissingFields, users)
      else if !email.value.Str? then Refused(500, RegistrationFailed, users)
      else if Registered(users, email.value.s) then Refused(400, AlreadyRegistered, users)
      else if !password.value.Str? || !name.value.Str? then Refused(500, RegistrationFailed, users)
      else
        var (after, u) := Create(users, name.value.s, email.value.s, hash(password.value.s)).value;
        var summary := Obj(map["id" := Num(u.id), "name" := Str(u.name), "email" := Str(u.email)]);
        SignupOutcome(Response(200, Obj(map["user" := summary, "message" := Str(Created)])), after)
  }

  /** The posted form as a body. */
  function Form(name: string, email: string, password: string): Value {
    Obj(map["name" := Str(name), "email" := Str(email), "password" := Str(password)])
  }

  /** Signing up twice with one address: the second attempt is refused and the table keeps one user for it. */
  lemma SecondSignupRefused(users: Store, name: string, email: string, password: string,
                            name2: string, password2: string, hash: string -> string)
    requires Valid(users) && name != "" && email != "" && password != "" && name2 != "" && password2 != ""
    requires !Registered(users, email)
    ensures var first := Post(Success(Form(name, email, password)), users, hash);
            var second := Post(Success(Form(name2, email, password2)), first.users, hash);
            first.response.status == 200 && second == Refused(400, AlreadyRegistered, first.users)
  {
    var first := Post(Success(Form(name, email, password)), users, hash);
    assert first.users.users[|users.users|].email == email;
  }

  /**
   * A fresh signup can then log in and authorize with the same password,
   * provided the comparison accepts a password against its own hash.
   */
  lemma SignupThenLogin(users: Store, name: string, email: string, password: string,
                        hash: string -> string, verify: (string, string) -> bool, createToken: nat -> string)
    requires Valid(users) && name != "" && email != "" && password != ""
    requires !Registered(users, email)
    requires verify(password, hash(password))
    ensures var signedUp := Post(Success(Form(name, email, password)), users, hash);
            var id := |users.users| + 1;
            && signedUp.response.status == 200
            && Login.Post(Success(Login.Credentials(email, password)), signedUp.users, verify, createToken).cookie
               == Some(createToken(id))
            && AuthConfig.Authorize(Some(map["email" := email, "password" := password]), signedUp.users, verify)
               == Success(AuthConfig.SignedInUser(id, email, name))
  {
    var signedUp := Post(Success(Form(name, email, password)), users, hash);
    var u := User(|users.users| + 1, name, email, hash(password), None);
    assert signedUp.users.users == users.users + [u];
    assert signedUp.users.users[|users.users|] == u;
    assert Registered(signedUp.users, email);
    assert FindByEmail(signedUp.users, email) == Some(u);
  }
}

=== FILE: sorting.dfy ===
/**
 * The stable descending sort both the recommendation ranking
 * (`sort((a, b) => b.score - a.score)`, which ECMAScript requires to be stable)
 * and the saved-result listing (`orderBy: { savedAt: "desc" }`) rely on.
 */
module Sorting {

  /** Keys never increase from left to right. */
  ghost predicate SortedDesc<T>(s: seq<T>, key: T -> int) {
    forall i, j :: 0 <= i < j < |s| ==> key(s[i]) >= key(s[j])
  }

  /** The elements of s whose key is k, in their order in s. */
  function WithKey<T>(s: seq<T>, key: T -> int, k: int): seq<T> {
    if |s| == 0 then []
    else (if key(s[0]) == k then [s[0]] else []) + WithKey(s[1..], key, k)
  }

  /** Relative order among equal keys is the same in r as in s. */
  ghost predicate StableWrt<T>(r: seq<T>, s: seq<T>, key: T -> int) {
    forall k :: WithKey(r, key, k) == WithKey(s, key, k)
  }

  /** Place x in front of the first element whose key is not greater than x's. */
  function Insert<T>(x: T, s: seq<T>, key: T -> int): (r: seq<T>)
    ensures |r| == |s| + 1
    ensures multiset(r) == multiset(s) + multiset{x}
    ensures forall k :: WithKey(r, key, k) == (if key(x) == k then [x] else []) + WithKey(s, key, k)
  {
    if |s| == 0 || key(s[0]) <= key(x) then
      assert ([x] + s)[1..] == s;
      [x] + s
    else
      var rest := Insert(x, s[1..], key);
      assert s == [s[0]] + s[1..];
      var r := [s[0]] + rest;
      assert r[1..] == rest;
      r
  }

  lemma {:induction false} InsertKeepsSorted<T>(x: T, s: seq<T>, key: T -> int)
    requires SortedDesc(s, key)
    ensures SortedDesc(Insert(x, s, key), key)
  {
    if |s| == 0 || key(s[0]) <= key(x) {
    } else {
      var rest := Insert(x, s[1..], key);
      InsertKeepsSorted(x, s[1..], key);
      forall j | 0 <= j < |rest| ensures key(s[0]) >= key(rest[j]) {
        assert rest[j] in multiset(rest);
        if rest[j] != x {
          assert rest[j] in multiset(s[1..]);
          var m :| 0 <= m < |s[1..]| && s[1..][m] == rest[j];
          assert s[m + 1] == rest[j];
        }
      }
    }
  }

  /**
   * The stable descending sort: a permutation of s, sorted by descending key,
   * with equal-key elements in their original order.
   */
  function SortDesc<T>(s: seq<T>, key: T -> int): (r: seq<T>)
    ensures |r| == |s|
    ensures multiset(r) == multiset(s)
    ensures SortedDesc(r, key)
    ensures StableWrt(r, s, key)
  {
    if |s| == 0 then []
    else
      var rest := SortDesc(s[1..], key);
      assert s == [s[0]] + s[1..];
      InsertKeepsSorted(s[0], rest, key);
      Insert(s[0], rest, key)
  }

  lemma {:induction false} WithKeyAppend<T>(a: seq<T>, b: seq<T>, key: T -> int, k: int)
    ensures WithKey(a + b, key, k) == WithKey(a, key, k) + WithKey(b, key, k)
  {
    if |a| > 0 {
      assert (a + b)[1..] == a[1..] + b;
      WithKeyAppend(a[1..], b, key, k);
    } else {
      assert a + b == b;
    }
  }

  /** The first n elements of a sorted sequence keep sortedness, and their equal-key runs are prefixes. */
  lemma PrefixOfSorted<T>(r: seq<T>, n: nat, key: T -> int)
    requires n <= |r|
    ensures SortedDesc(r, key) ==> SortedDesc(r[..n], key)
    ensures forall k :: WithKey(r[..n], key, k) <= WithKey(r, key, k)
  {
    assert r == r[..n] + r[n..];
    forall k ensures WithKey(r[..n], key, k) <= WithKey(r, key, k) {
      WithKeyAppend(r[..n], r[n..], key, k);
    }
  }

  /**
   * Every element left out of the first n of a sorted sequence has a key
   * no greater than any element kept.
   */
  lemma {:induction false} DroppedAreNotGreater<T>(r: seq<T>, n: nat, key: T -> int)
    requires n <= |r| && SortedDesc(r, key)
    ensures forall y, t :: y in multiset(r) - multiset(r[..n]) && t in r[..n] ==> key(y) <= key(t)
  {
    assert r == r[..n] + r[n..];
    assert multiset(r) - multiset(r[..n]) == multiset(r[n..]);
    forall y, t | y in multiset(r[n..]) && t in r[..n] ensures key(y) <= key(t) {
      var i :| 0 <= i < n && r[i] == t;
      var j :| 0 <= j < |r[n..]| && r[n..][j] == y;
      assert r[n + j] == y;
    }
  }
}

=== FILE: text.dfy ===
/**
 * The string operations the JavaScript code relies on, over Dafny strings:
 * `toLowerCase`, `includes`, `join`, `split(',')[0]`, `replace(/"/g, '')`,
 * `trim` and number-to-decimal conversion.
 */
module Text {

  /** The characters JavaScript's `\s` class and `String.prototype.trim` treat as white space. */
  predicate IsWhitespace(c: char) {
    || c in {'\t', '\n', '\U{000B}', '\U{000C}', '\r', ' ', '\U{00A0}', '\U{1680}',
             '\U{2028}', '\U{2029}', '\U{202F}', '\U{205F}', '\U{3000}', '\U{FEFF}'}
    || ('\U{2000}' <= c <= '\U{200A}')
  }

  function LowerChar(c: char): (r: char)
    ensures 'A' <= c <= 'Z' ==> r as int == c as int + 32
    ensures !('A' <= c <= 'Z') ==> r == c
  {
    if 'A' <= c <= 'Z' then (c as int + 32) as char else c
  }

  function UpperChar(c: char): (r: char)
    ensures 'a' <= c <= 'z' ==> r as int == c as int - 32
    ensures !('a' <= c <= 'z') ==> r == c
  {
    if 'a' <= c <= 'z' then (c as int - 32) as char else c
  }

  /** `s.toLowerCase()` restricted to the ASCII letters. */
  function Lower(s: string): (r: string)
    ensures |r| == |s|
    ensures forall i :: 0 <= i < |s| ==> r[i] == LowerChar(s[i])
    ensures forall i :: 0 <= i < |r| ==> !('A' <= r[i] <= 'Z')
  {
    seq(|s|, i requires 0 <= i < |s| => LowerChar(s[i]))
  }

  /** `propertyName.charAt(0).toUpperCase() + propertyName.slice(1)` */
  function Capitalize(s: string): (r: string)
    ensures |r| == |s|
    ensures |s| > 0 ==> r[0] == UpperChar(s[0]) && r[1..] == s[1..]
  {
    if |s| == 0 then "" else [UpperChar(s[0])] + s[1..]
  }

  /** `s.includes(t)`: t occurs in s at some offset. The empty string occurs in every string. */
  predicate Contains(s: string, t: string) {
    exists i | 0 <= i <= |s| - |t| :: OccursAt(s, t, i)
  }

  /** t occurs in s starting at offset i. */
  predicate OccursAt(s: string, t: string, i: int) {
    0 <= i && i + |t| <= |s| && s[i..i + |t|] == t
  }

  /** w occurs in head + w + tail. */
  lemma OccursAfter(head: string, w: string, tail: string)
    ensures Contains(head + w + tail, w)
  {
    var text := head + w + tail;
    assert text[|head|..|head| + |w|] == w;
    assert OccursAt(text, w, |head|);
  }

  /** Whatever occurs in rest occurs in head + rest. */
  lemma OccursInSuffix(head: string, rest: string, w: string)
    requires Contains(rest, w)
    ensures Contains(head + rest, w)
  {
    var j :| 0 <= j <= |rest| - |w| && OccursAt(rest, w, j);
    assert (head + rest)[|head| + j..|head| + j + |w|] == rest[j..j + |w|];
    assert OccursAt(head + rest, w, |head| + j);
  }

  /** Whatever occurs in s occurs in s + tail. */
  lemma OccursInPrefix(s: string, tail: string, w: string)
    requires Contains(s, w)
    ensures Contains(s + tail, w)
  {
    var j :| 0 <= j <= |s| - |w| && OccursAt(s, w, j);
    assert (s + tail)[j..j + |w|] == s[j..j + |w|];
    assert OccursAt(s + tail, w, j);
  }

  /** A concatenation begins with its first part. */
  lemma PrefixOfJoined(front: string, back: string)
    ensures (front + back)[..|front|] == front
  {
  }

  /** `parts.join(sep)` */
  function Join(parts: seq<string>, sep: string): (r: string)
    ensures |parts| == 0 ==> r == ""
    ensures |parts| == 1 ==> r == parts[0]
  {
    if |parts| == 0 then ""
    else if |parts| == 1 then parts[0]
    else parts[0] + sep + Join(parts[1..], sep)
  }

  /** Every part occurs in the joined string. */
  lemma {:induction false} JoinContains(parts: seq<string>, sep: string, i: nat)
    requires i < |parts|
    ensures Contains(Join(parts, sep), parts[i])
  {
    if |parts| == 1 {
      OccursAfter("", parts[0], "");
      assert "" + parts[0] + "" == parts[0];
    } else if i == 0 {
      OccursAfter("", parts[0], sep + Join(parts[1..], sep));
      assert "" + parts[0] + (sep + Join(parts[1..], sep)) == Join(parts, sep);
    } else {
      JoinContains(parts[1..], sep, i - 1);
      OccursInSuffix(parts[0] + sep, Join(parts[1..], sep), parts[i]);
    }
  }

  /** `s.split(c)[0]`: everything before the first occurrence of c, or all of s. */
  function FirstSegment(s: string, c: char): (r: string)
    ensures |r| <= |s| && r == s[..|r|]
    ensures c !in r
    ensures |r| < |s| ==> s[|r|] == c
  {
    if |s| == 0 || s[0] == c then "" else [s[0]] + FirstSegment(s[1..], c)
  }

  /** `s.replace(/c/g, '')` for a single character c. */
  function RemoveAll(s: string, c: char): (r: string)
    ensures c !in r
    ensures forall d :: d != c ==> multiset(r)[d] == multiset(s)[d]
  {
    if |s| == 0 then ""
    else if s[0] == c then (assert s == [s[0]] + s[1..]; RemoveAll(s[1..], c))
    else (assert s == [s[0]] + s[1..]; [s[0]] + RemoveAll(s[1..], c))
  }

  /** Removing from a concatenation removes from each part. */
  lemma {:induction false} RemoveAllConcat(a: string, b: string, c: char)
    ensures RemoveAll(a + b, c) == RemoveAll(a, c) + RemoveAll(b, c)
  {
    if |a| > 0 {
      assert (a + b)[1..] == a[1..] + b;
      assert (a + b)[0] == a[0];
      RemoveAllConcat(a[1..], b, c);
    } else {
      assert a + b == b;
    }
  }

  /** One character is dropped when it is `c` and kept otherwise. */
  lemma RemoveAllOne(x: char, c: char)
    ensures RemoveAll([x], c) == if x == c then [] else [x]
  {
    assert [x][1..] == [];
  }

  function TrimStart(s: string): (r: string)
    ensures |r| <= |s| && r == s[|s| - |r|..]
    ensures |r| > 0 ==> !IsWhitespace(r[0])
    ensures forall i :: 0 <= i < |s| - |r| ==> IsWhitespace(s[i])
  {
    if |s| > 0 && IsWhitespace(s[0]) then TrimStart(s[1..]) else s
  }

  function TrimEnd(s: string): (r: string)
    ensures |r| <= |s| && r == s[..|r|]
    ensures |r| > 0 ==> !IsWhitespace(r[|r| - 1])
    ensures forall i :: |r| <= i < |s| ==> IsWhitespace(s[i])
  {
    if |s| > 0 && IsWhitespace(s[|s| - 1]) then TrimEnd(s[..|s| - 1]) else s
  }

  predicate AllWhitespace(s: string) {
    forall i :: 0 <= i < |s| ==> IsWhitespace(s[i])
  }

  /**
   * `r` is `s` with white space stripped at both ends and nowhere else: `s`
   * is some white space, then `r`, then more white space, and `r` neither
   * starts nor ends with white space.
   */
  ghost predicate TrimmedOf(s: string, r: string) {
    && (exists k: nat :: k + |r| <= |s| && s[k..k + |r|] == r && AllWhitespace(s[..k]) && AllWhitespace(s[k + |r|..]))
    && (|r| > 0 ==> !IsWhitespace(r[0]) && !IsWhitespace(r[|r| - 1]))
  }

  /** `s.trim()` */
  function Trim(s: string): (r: string)
    ensures TrimmedOf(s, r)
  {
    TrimStripsEnds(s);
    TrimEnd(TrimStart(s))
  }

  lemma TrimStripsEnds(s: string)
    ensures TrimmedOf(s, TrimEnd(TrimStart(s)))
  {
    var t := TrimStart(s);
    var r := TrimEnd(t);
    var k := |s| - |t|;
    assert s[k..] == t;
    assert s[k..k + |r|] == t[..|r|] == r;
    LeadStripped(s);
    TailStripped(t);
    assert s[k + |r|..] == t[|r|..];
    assert k + |r| <= |s| && s[k..k + |r|] == r && AllWhitespace(s[..k]) && AllWhitespace(s[k + |r|..]);
  }

  /** What `TrimStart` drops is white space. */
  lemma LeadStripped(s: string)
    ensures AllWhitespace(s[..|s| - |TrimStart(s)|])
  {
    var lead := s[..|s| - |TrimStart(s)|];
    forall i | 0 <= i < |lead| ensures IsWhitespace(lead[i]) {
      assert lead[i] == s[i];
    }
  }

  /** What `TrimEnd` drops is white space. */
  lemma TailStripped(t: string)
    ensures AllWhitespace(t[|TrimEnd(t)|..])
  {
    var r := TrimEnd(t);
    var tail := t[|r|..];
    forall i | 0 <= i < |tail| ensures IsWhitespace(tail[i]) {
      assert tail[i] == t[|r| + i];
    }
  }

  function DigitChar(d: nat): (c: char)
    requires d < 10
  {
    "0123456789"[d]
  }

  /** The decimal rendering JavaScript gives a non-negative integer. */
  function NatToString(n: nat): (r: string)
    ensures |r| > 0
    ensures forall i :: 0 <= i < |r| ==> '0' <= r[i] <= '9'
    decreases n
  {
    if n < 10 then [DigitChar(n)] else NatToString(n / 10) + [DigitChar(n % 10)]
  }

  /** The decimal rendering JavaScript gives an integer. */
  function IntToString(n: int): (r: string)
    ensures |r| > 0
  {
    if n < 0 then "-" + NatToString(-n) else NatToString(n)
  }
}

=== FILE: users.dfy ===
/**
 * The user table the auth routes read and write, as an in-memory store:
 * ids are assigned in creation order starting at 1 and e-mail addresses are
 * unique, as the database's unique index on `email` guarantees.
 */
module UserStore {
  import opened Wrappers

  /** A user row; `password` holds the stored hash. */
  datatype User = User(id: nat, name: string, email: string, password: string, role: Option<string>)

  datatype Store = Store(users: seq<User>)

  /** Ids are positions plus one and no two users share an e-mail address. */
  ghost predicate Valid(s: Store) {
    && (forall i :: 0 <= i < |s.users| ==> s.users[i].id == i + 1)
    && (forall i, j :: 0 <= i < j < |s.users| ==> s.users[i].email != s.users[j].email)
  }

  predicate Registered(s: Store, email: string) {
    exists i :: 0 <= i < |s.users| && s.users[i].email == email
  }

  function FindIn(users: seq<User>, email: string): (r: Option<User>)
    ensures r.Some? <==> exists i :: 0 <= i < |users| && users[i].email == email
    ensures r.Some? ==> r.value in users && r.value.email == email
  {
    if |users| == 0 then None
    else if users[0].email == email then Some(users[0])
    else
      var r := FindIn(users[1..], email);
      assert forall i :: 0 < i < |users| ==> users[i] == users[1..][i - 1];
      r
  }

  /** `findUnique({ where: { email } })` */
  function FindByEmail(s: Store, email: string): (r: Option<User>)
    ensures r.Some? <==> Registered(s, email)
    ensures r.Some? ==> r.value in s.users && r.value.email == email
    ensures Valid(s) && r.Some? ==> forall u :: u in s.users && u.email == email ==> u == r.value
  {
    FindIn(s.users, email)
  }

  /** `findUnique({ where: { id } })` */
  function FindById(s: Store, id: nat): (r: Option<User>)
    ensures Valid(s) ==> (r.Some? <==> 1 <= id <= |s.users|)
    ensures Valid(s) && r.Some? ==> r.value == s.users[id - 1] && r.value.id == id
  {
    if 1 <= id <= |s.users| && s.users[id - 1].id == id then Some(s.users[id - 1]) else None
  }

  /**
   * `create`: appends a user with the next id, or fails on the unique index
   * when the address is taken.
   */
  function Create(s: Store, name: string, email: string, password: string): (r: Option<(Store, User)>)
    ensures r.None? <==> Registered(s, email)
    ensures r.Some? ==> r.value.0.users == s.users + [r.value.1]
    ensures r.Some? ==> r.value.1 == User(|s.users| + 1, name, email, password, None)
    ensures r.Some? && Valid(s) ==> Valid(r.value.0)
  {
    if Registered(s, email) then None
    else
      var u := User(|s.users| + 1, name, email, password, None);
      Some((Store(s.users + [u]), u))
  }
}

=== FILE: wrappers.dfy ===
/** Failure-compatible wrappers shared by every module of the model. */
module Wrappers {

  /** A value that may be absent (JavaScript `undefined` / `null`). */
  datatype Option<+T> = None | Some(value: T) {
    function GetOr(default: T): T {
      match this
      case Some(v) => v
      case None => default
    }
  }

  /** The outcome of an operation that may throw; the error carries the exception message. */
  datatype Result<+R, +E> = Success(value: R) | Failure(error: E) {
    predicate IsFailure() {
      Failure?
    }

    function PropagateFailure<U>(): Result<U, E>
      requires Failure?
    {
      Failure(error)
    }

    function Extract(): R
      requires Success?
    {
      value
    }
  }
}
